=== FILE: README.md ===
# Requirements relay of pom-bolt, modelled in Dafny

pom-bolt is a browser IDE that generates code from chat. This project models
the path that brings a set of requirements into that chat:

- **RequirementsApi** (`requirements_api.dfy`) is the `/api/requirements`
  mailbox. It has one global slot holding the last submission. The POST
  action submits content or marks the entry as processed. The GET loader
  reports the slot's status. Two helpers flag or consume the entry. The slot
  is an explicit state value, and `Run` replays any sequence of operations.
- **FileProcessor** (`file_processor.dfy`, prompt texts in `prompts.dfy`)
  turns free text into trimmed, non-blank requirement lines. It then builds
  a two-message chat seed and two files: `requirements.txt` and a numbered
  `README.md`.
- **StreamReframe** (`stream_reframe.dfy`) re-frames the chat engine's reply
  in the file-input route. The reply's `data: <json>` lines are parsed, and
  message, progress and code-context frames are forwarded between an opening
  and a closing progress frame. The loop as written is `Execute`/`Reframe`,
  and the route uses it. The buffered loop `ReframeBuffered` is the
  corrected version that goes with the finding below.
- **FileInputApi** (`file_input_api.dfy`) is the `/api/file-input` action.
  It normalises the webhook body, runs the processor, calls the internal
  chat endpoint, and returns an event stream or an error.
- **ChatRouting** (`chat_routing.dfy`) is the prologue of `sendMessage` in
  the chat page. It covers the blank and abort checks, navigation to a named
  project, navigation home for a webhook send on a project page, and the
  addresses those navigations go to.
- **ChatMessages** (`chat_messages.dfy`) covers how a sent text enters the
  message list:
  - the `[Model: …]\n\n[Provider: …]\n\n` prefix, and parsing it back;
  - dropping a failed reply before appending;
  - merging parsed contents into the displayed list;
  - the sampled parse-and-store callback.
- **FileUpload** (`file_upload.dfy`) is the upload handler. Its checks and
  effects are an ordered trace of notices, loading and progress settings,
  and the hand-off to the send callback.
- **ChatWithFileUpload** (`chat_with_file_upload.dfy`) is the forwarding
  handler between the upload box and the chat. It also shows where an
  uploaded text ends up.
- **Wrappers**, **Json** and **Text** are shared support modules:
  - Wrappers: `Option` and `Result`;
  - Json: JavaScript values with truthiness, `||`, property access, and the
    thrown-error message rule;
  - Text: JavaScript `trim`, `split`, `join`, `startsWith` and decimal
    numbers.

Things the program does not control are parameters of the model:

- the clock (`now`);
- the work directory (`workDir`);
- `JSON.parse` (`parse`);
- `encodeURIComponent` (`encode`);
- the internal chat endpoint (`ChatEngine`);
- the result of reading a file (`File.text`).

Navigation and notices become values: a `Decision` and a trace of `Event`s.

A send with no project id is redirected home from a project page only
when its event object has no own keys (`Chat.client.tsx` lines 321 and
344). Webhook sends and file uploads pass such an event. A send typed into
the chat box stays in place (`ChatRouting.UserSendStaysInPlace`).

## Model

| member | source | states |
|---|---|---|
| RequirementsApi.FormBody | app/routes/api.requirements.ts:36-42 | A form body's text fields are read as strings or undefined; `markAsProcessed` is set exactly when the form field is the string `"true"`. |
| RequirementsApi.ParseBody | app/routes/api.requirements.ts:30-43 | A content type mentioning `application/json` is parsed as JSON and kept as the parsed value, anything else as form data, which is an object; the body is unreadable exactly when the chosen parser throws. |
| RequirementsApi.SubmittedContent | app/routes/api.requirements.ts:58 | `content` wins when it is a non-empty string; otherwise `requirements` is used when it is a non-empty string; a truthy non-string `content` yields no content; any content found is non-empty. |
| RequirementsApi.HandleBody | app/routes/api.requirements.ts:46-92 | A `null` body gets the 500 reply. Otherwise mark-as-processed wins over content in the same body: it flags the entry (200) or answers 404 on an empty slot. Otherwise valid content replaces the slot with an unprocessed entry stamped `now`, and anything else is a 400 that echoes the body as parsed and keeps the slot. |
| RequirementsApi.NonObjectBodyRejected | app/routes/api.requirements.ts:58-70 | A parsed body that is not an object (a JSON string, number, boolean or array) is a 400 echoing that very value, and the slot is kept. |
| RequirementsApi.Action | app/routes/api.requirements.ts:20-92 | A non-POST gets 405; every non-200 reply keeps the slot; a submission replaces the slot whatever it held; any other request only keeps or flags the entry; the non-empty-content invariant is preserved; the status is one of 200/400/404/405/500. |
| RequirementsApi.Loader | app/routes/api.requirements.ts:104-118 | A non-GET gets 405. A GET answers 200 with a status whose `hasRequirements` is exactly whether the slot is full; it reports the entry's processed flag and content, its timestamp (null for a stamp of 0) and its project id (null when falsy), and reports all-empty for an empty slot. |
| RequirementsApi.MarkRequirementsAsProcessed | app/routes/api.requirements.ts:121-125 | An empty slot stays empty; a full one keeps everything but its flag, which becomes processed. |
| RequirementsApi.GetAndConsumeRequirements | app/routes/api.requirements.ts:128-138 | Hands out content and project id exactly when there is an unprocessed entry, and flags it; otherwise returns nothing and changes nothing; afterwards any entry is processed. |
| RequirementsApi.RunKeepsValid | app/routes/api.requirements.ts:58-78 | Every interleaving of requests and helper calls keeps the invariant that a staged entry has non-empty content. |
| RequirementsApi.StepWithoutSubmission | app/routes/api.requirements.ts:121-138 | An operation that is not a submission at most flags the entry, and hands something out only if an entry was pending. |
| RequirementsApi.AtMostOnceDelivery | app/routes/api.requirements.ts:128-138 | Between submissions an entry is handed out at most once, and not at all if it was already processed, however the other operations interleave. |
| RequirementsApi.ConsumeTwice | app/routes/api.requirements.ts:128-138 | Two consecutive consumes of a pending entry give it once and then nothing. |
| RequirementsApi.LastWriteWins | app/routes/api.requirements.ts:73-78 | The reply to a submission and the resulting slot do not depend on what the slot held before. |
| RequirementsApi.SubmitThenStatus | app/routes/api.requirements.ts:104-118 | After a submission the status shows an unprocessed entry with exactly the submitted content, the body's project id (null when falsy), and the submission's stamp (null for 0). |
| RequirementsApi.MarkTwice | app/routes/api.requirements.ts:48-55 | Marking is idempotent: twice 200 with the entry processed, or twice 404 with the slot empty. |
| FileProcessor.ExtractRequirements | app/lib/.server/file-processing/file-processor.ts:22-25 | Every extracted requirement is non-empty, trimmed, and holds no line break. |
| FileProcessor.NoRequirementsIffBlank | app/lib/.server/file-processing/file-processor.ts:22-32 | A text yields no requirement exactly when it is whitespace only, line breaks included. |
| FileProcessor.RequirementsOfLine | app/lib/.server/file-processing/file-processor.ts:22-25 | A single line yields its trimmed self, or nothing when blank. |
| FileProcessor.RequirementsAppend | app/lib/.server/file-processing/file-processor.ts:22-25 | The requirements of two texts joined by a line break are those of the first followed by those of the second. |
| FileProcessor.RequirementsRoundTrip | app/lib/.server/file-processing/file-processor.ts:121 | Requirement lines joined by line breaks extract back to the same list. |
| FileProcessor.NumberedListRoundTrip | app/lib/.server/file-processing/file-processor.ts:103 | Decoding the numbered list, line by line with numbers stripped, gives the requirements back in order. |
| FileProcessor.NumberedListLines | app/lib/.server/file-processing/file-processor.ts:108 | Line `i` of the numbered list is `"<i+1>. <req_i>"`. |
| FileProcessor.PathsDistinct | app/lib/.server/file-processing/file-processor.ts:120-125 | The requirements file and the README never share a key, whatever the work directory. |
| FileProcessor.ProcessRequirements | app/lib/.server/file-processing/file-processor.ts:22-32 | The inner body fails only with the no-requirements error. |
| FileProcessor.ProcessContent | app/lib/.server/file-processing/file-processor.ts:17-135 | Fails exactly when the text is blank, and then only with `Failed to process file content`. On success the seed holds a system and a user message, context optimisation on, the caller's project flag, and exactly the two files. |
| FileProcessor.SeedOfText | app/lib/.server/file-processing/file-processor.ts:22-126 | A text that is not blank always succeeds, and its seed is built from exactly its extracted requirements. |
| FileProcessor.RequirementsFileRoundTrip | app/lib/.server/file-processing/file-processor.ts:121 | Processing the generated requirements file again yields the same requirements and the same seed. |
| FileProcessor.ReadmeListsRequirements | app/lib/.server/file-processing/file-processor.ts:122-124 | The README is the title, a blank line, then entry `i` as `"<i+1>. <req_i>"`; decoding its list gives the requirements back. |
| FileProcessor.UserMessageListsRequirements | app/lib/.server/file-processing/file-processor.ts:97-111 | The user message's lines are the header, a blank line, the numbered entries, a blank line, then the footer. |
| FileProcessor.FlagSelectsPrompts | app/lib/.server/file-processing/file-processor.ts:41-92 | Two seeds have the same system message exactly when their project flags agree. |
| StreamReframe.ForwardKinds | app/routes/api.file-input.ts:116-137 | Exactly objects typed `message`, `progress` or `codeContext` are forwarded, each as its own kind of frame carrying only the listed fields of that object. |
| StreamReframe.FrameOfLineNeedsData | app/routes/api.file-input.ts:112-116 | Only a line starting with `data: ` whose remainder parses can yield a frame, and then it is the forwarded frame of the parsed value. |
| StreamReframe.Reframe | app/routes/api.file-input.ts:84-153 | The stream is the opening frame, the forwarded frames of all chunks, and the closing frame. |
| StreamReframe.Execute | app/routes/api.file-input.ts:84-153 | The loop over chunks and their lines produces exactly `Reframe`'s stream. |
| StreamReframe.HandleChunk | app/routes/api.file-input.ts:108-142 | One chunk appends the frames of its own lines, in order. |
| StreamReframe.HandleLine | app/routes/api.file-input.ts:112-140 | One line appends its frame, if it has one. |
| StreamReframe.MalformedLineSkipped | app/routes/api.file-input.ts:138-140 | A malformed `data:` line is skipped and the lines after it are still handled. |
| StreamReframe.AtMostOneFramePerDataLine | app/routes/api.file-input.ts:111-113 | No more frames are forwarded than there are `data: ` lines. |
| StreamReframe.FramesFollowChunkLines | app/routes/api.file-input.ts:107-111 | The frames are those of each chunk's own lines, concatenated in chunk order. |
| StreamReframe.StraddlingLineLost | app/routes/api.file-input.ts:107-109 | The same text `data: {"type":"message"}` yields a message frame in one chunk and nothing when cut as `data` + `: {"type":"message"}`. |
| StreamReframe.BufferedFollowsText | app/routes/api.file-input.ts:107-109 | With a carry buffer, the frames are those of the lines of the whole text. |
| StreamReframe.ReframeBufferedIsChunkingInvariant | app/routes/api.file-input.ts:100-143 | The buffered stream does not depend on how the text is cut into chunks, and equals the as-written stream when the text arrives in one chunk. |
| FileInputApi.Normalize | app/routes/api.file-input.ts:25-41 | The content is `content` when truthy, else `requirements` when truthy, else `""`. The file name is always truthy, the project id is passed through, and the project flag is its truthiness. |
| FileInputApi.ProcessValue | app/routes/api.file-input.ts:43 | Processing succeeds exactly for a string that is not blank, keeps the project flag, and otherwise fails with the processing error. |
| FileInputApi.Stream | app/routes/api.file-input.ts:83-159 | The stream starts with the opening frame. Without a reply body it is the opening frame followed by `Error: Failed to get response reader`; with one it is the reply re-framed chunk by chunk, as the loop is written, ending with the closing frame. |
| FileInputApi.Respond | app/routes/api.file-input.ts:43-177 | After the body is read, the reply is never the plain-text 405; errors are 500; a stream opens with the frame for the project flag. |
| FileInputApi.Action | app/routes/api.file-input.ts:8-177 | The plain-text 405 is returned exactly for non-POST requests; every error is a 500 JSON reply; a stream comes only from a readable body and opens with the frame chosen by the project id's truthiness. |
| FileInputApi.EngineOnlyForProcessable | app/routes/api.file-input.ts:43-57 | The chat endpoint is consulted only for processable requests; a readable body without usable content gets `Failed to process file content` with status 500. |
| FileInputApi.ReplyFollowsEngine | app/routes/api.file-input.ts:57-83 | A thrown fetch gives its message (or the fallback) as a 500; a non-ok reply gives `Failed to process chat request`; an ok reply gives the stream of its body, re-framed chunk by chunk as the loop is written. |
| FileInputApi.StreamsExactlyWhen | app/routes/api.file-input.ts:72-168 | The reply is a stream exactly when the request is processable and the endpoint answers ok. |
| FileInputApi.EngineSeesSeed | app/routes/api.file-input.ts:57-70 | The endpoint receives prompt id `file-input`, the project id as given, and the seed's messages; its requirements file re-extracts to the submitted text's non-empty requirements. |
| FileInputApi.OneFlagForSeedAndStream | app/routes/api.file-input.ts:41-91 | The seed's project flag and the opening frame's text come from the same truthiness of the project id. |
| FileInputApi.StreamOfBody | app/routes/api.file-input.ts:94-153 | With a body, the stream is exactly the frames of the as-written, chunk-by-chunk re-framing, with no error part; without one it has two parts, the second an error. |
| FileInputApi.StreamDependsOnChunking | app/routes/api.file-input.ts:107-109 | The route's stream depends on the chunking: the reply `data: {"type":"message"}` sent whole streams its message frame between the progress frames, and sent as `data` + `: {"type":"message"}` (the same text) streams only the two progress frames. |
| FileInputApi.ContentFieldWins | app/routes/api.file-input.ts:25 | A truthy `content` makes `requirements` irrelevant. |
| FileInputApi.FileNameIgnored | app/routes/api.file-input.ts:26-33 | Changing the file name never changes the response. |
| ChatRouting.CurrentProjectId | app/components/chat/Chat.client.tsx:317-318 | There is an id exactly on paths starting with `/chat/`, and it holds no `/`. |
| ChatRouting.CurrentProjectIdIsThirdSegment | app/components/chat/Chat.client.tsx:318 | The id is the third `/`-separated piece of the path. |
| ChatRouting.ProjectPathRoundTrip | app/components/chat/Chat.client.tsx:338 | A project page reads back its own id exactly when the id holds no `/`; deeper paths read the same id. |
| ChatRouting.MessageContent | app/components/chat/Chat.client.tsx:305 | The message input when truthy, otherwise the text box. |
| ChatRouting.Decide | app/components/chat/Chat.client.tsx:304-371 | A blank text is ignored exactly when blank; a send while loading aborts; every sending decision carries the message content; navigation to a project names the given id. |
| ChatRouting.ToProjectExactlyWhen | app/components/chat/Chat.client.tsx:324-343 | A send navigates to a project exactly when it is not blank, not loading, and names a project other than the current page's. |
| ChatRouting.ToNewProjectExactlyWhen | app/components/chat/Chat.client.tsx:344-364 | A send navigates home exactly when it is not blank, not loading, names no project, is keyless, and the page has a non-empty project id. |
| ChatRouting.UserSendStaysInPlace | app/components/chat/Chat.client.tsx:365-371 | A typed send naming no project proceeds in place on every page. |
| ChatRouting.PathOfAddress | app/components/chat/Chat.client.tsx:338 | The path of an address is read back whole when it holds no `?`. |
| ChatRouting.Href | app/components/chat/Chat.client.tsx:338-362 | Exactly the navigation decisions have an address. |
| ChatRouting.HrefCarriesContent | app/components/chat/Chat.client.tsx:338-362 | A navigation address splits on `?` into exactly the target path and the query. The query of a project redirect is the single `initialRequirements=<encoded content>` parameter; a home redirect's is that parameter followed by `fromWebhook=true`. This holds whenever the encoded content holds no `?` or `&`. |
| ChatRouting.ProjectRedirectSettles | app/components/chat/Chat.client.tsx:324-343 | For an id the browser keeps unchanged in the path, the same send made on the project page it navigated to proceeds in place. |
| ChatRouting.HomeRedirectSettles | app/components/chat/Chat.client.tsx:344-364 | A home redirect lands on `/`, where the same send proceeds in place. |
| ChatMessages.ParseUserText | app/components/chat/Chat.client.tsx:431 | Names read from a prefixed text hold no `]`. |
| ChatMessages.ParseUserTextSound | app/components/chat/Chat.client.tsx:431 | A text that parses is the prefix of the names read, followed by the rest. |
| ChatMessages.ParseUserTextRoundTrip | app/components/chat/Chat.client.tsx:460 | A user text with `]`-free names parses back to its model, provider, and artifact plus content. |
| ChatMessages.UserTextInjective | app/components/chat/Chat.client.tsx:476 | Two such user texts are equal only when they agree on model, provider and the text after the prefix. |
| ChatMessages.UserMessage | app/components/chat/Chat.client.tsx:424-438 | A user message has no annotations; its text part comes first, then one image part per image, in order. |
| ChatMessages.Deliver | app/components/chat/Chat.client.tsx:374-484 | The new message is always last. A chat not yet started holds only it; a started chat keeps all earlier messages, or all but the last after a failed reply. |
| ChatMessages.DeliverAfterError | app/components/chat/Chat.client.tsx:445-447 | A retry after a failed reply keeps the list's length, replacing the failed message; otherwise the list grows by one. |
| ChatMessages.Processed | app/components/chat/Chat.client.tsx:542-545 | Each message keeps id, role and annotations, and shows its parsed text when that is non-empty. |
| ChatMessages.ProcessedIdempotent | app/components/chat/Chat.client.tsx:542-545 | Merging twice equals merging once; merging nothing leaves the list unchanged. |
| ChatMessages.SampledCallback | app/components/chat/Chat.client.tsx:106-111 | The callback always parses first, and stores the list exactly when it has grown past the initial messages. |
| ChatMessages.SampledRunStoresOnlyGrown | app/components/chat/Chat.client.tsx:106-111 | Over any run, only lists longer than the initial one are stored; a run that never grows stores nothing. |
| FileUpload.HandleFileUpload | app/components/file-input/file-upload.tsx:19-75 | No file does nothing; a wrong type, then an oversized file, gets exactly one notice; an acceptable file is bracketed by loading on at 50% and loading off at 0%. |
| FileUpload.UploadEndsIdle | app/components/file-input/file-upload.tsx:46-74 | Starting idle, every upload leaves loading off and progress at 0. |
| FileUpload.OneNoticePerFile | app/components/file-input/file-upload.tsx:31-69 | Every chosen file produces exactly one notice. |
| FileUpload.SendsExactlyWhen | app/components/file-input/file-upload.tsx:52-65 | The text is sent exactly when the file is acceptable, is read, and a send callback exists; it is sent whole and at most once. |
| FileUpload.TypeCheckedBeforeSize | app/components/file-input/file-upload.tsx:31-44 | A wrong type is refused for its type whatever its size; a `text/plain` file of 1 MiB passes and one byte more does not. |
| ChatWithFileUpload.HandleRequirementsUpload | app/components/chat/ChatWithFileUpload.tsx:22-34 | A missing or empty text calls nothing. Otherwise the send function, when present, gets event, text and project id unchanged and comes first, and the upload callback, when present, gets the text last. |
| ChatWithFileUpload.UploadCallbackWithoutSender | app/components/chat/ChatWithFileUpload.tsx:29-32 | The upload callback is reached whether or not there is a send function. |
| ChatWithFileUpload.BaseChatSender | app/components/chat/ChatWithFileUpload.tsx:46-51 | The chat box gets the chat's sender exactly when there is one. |
| ChatWithFileUpload.Invoke | app/components/chat/ChatWithFileUpload.tsx:46-51 | The fallback sender does nothing; the chat's sender forwards the event and text with no project id. |
| ChatWithFileUpload.UploadCallsFollowTrace | app/components/chat/ChatWithFileUpload.tsx:40 | The calls an upload leads to are the forwarding of exactly the text the upload trace sends. |
| ChatWithFileUpload.EmptyFileReachesNobody | app/components/file-input/file-upload.tsx:57-61 | An empty file is announced as processed, yet reaches no callback. |
| ChatWithFileUpload.UploadRoutesLikeWebhook | app/components/chat/ChatWithFileUpload.tsx:22-27 | An uploaded text is a keyless send without project id: on a project page it navigates home, elsewhere it proceeds in place. |
| ChatWithFileUpload.BlankFileIgnored | app/components/chat/Chat.client.tsx:305-309 | A file of blanks is forwarded, but the send ignores it. |

## Left out

- Rendering, styling, animations, cookies, the model and provider pickers,
  toasts in the chat page, and logging: they have no effect on the relayed
  requirements.
- The chat SDK's `useChat` internals (`append`, `reload`, `setMessages`,
  `abort`): message delivery is a pure list function (`ChatMessages.Deliver`),
  and the engine call itself is out of scope.
- The starter-template selection of a chat not yet started
  (`Chat.client.tsx` lines 375-421) and `useChatHistory`: both call services
  outside this core. The model covers the fall-through message only.
- The `initialRequirements` effect (`Chat.client.tsx` lines 548-619) is not
  modelled as its own member. Its messages are `UserText` with an empty
  artifact, delivered by `Deliver` with "started" meaning that there are
  initial messages. The 1.5 s timer, the forced chat start and the URL
  clean-up are timing and browser effects.
- The sampler's 50 ms throttling, `setTimeout` and `Date.now`: time is left
  out, and the clock is the `now` parameter.
- `fetch`, request headers and the forwarded cookie: the chat endpoint is
  the `ChatEngine` parameter, and its reply is given as decoded text chunks.
- `TextDecoder` use without streaming mode, which can also split a
  multi-byte character across chunks: the model works on decoded
  characters.
- `JSON.parse` and `encodeURIComponent` are parameters, and `JSON.stringify`
  of the replies is left out. Replies are datatypes, not serialised text.
- The data-stream protocol of the chat SDK: frames are values, and the
  `onError` handler is modelled only for the missing-reader error.
- JSON numbers are integers: no floating point. `0` is the only falsy
  number, so `NaN` and `-0` are not distinguished.
- A JSON `null` request body makes the field reads of `api.file-input.ts`
  throw. The model folds it into the unreadable-body case of
  `FileInputApi.Body`.
- The `details` field of the 500 reply of `api.requirements.ts`
  (lines 83-92): `RequirementsApi.Action` returns the fixed error text only.
- Concurrency between requests: operations on the mailbox are applied one
  at a time (`RequirementsApi.Run`). This is how a single-threaded server
  sees them.
- `_index.tsx` and `chat.$id.tsx`: they only read the query parameters and
  mount the chat. They are not part of this model.
- The `WORK_DIR` constant is not part of this model: it is the `workDir`
  parameter.
- `trim` strips the ECMAScript white-space and line-terminator characters
  listed in `Text.WhitespaceChars`. There is no Unicode normalisation.
- ChatRouting.HrefCarriesContent: requires an encoded content without `?`
  or `&`, and a project id without `?`. `encodeURIComponent` escapes both
  characters, but the encoder is a parameter here.
- ChatRouting.ProjectRedirectSettles: requires a path-safe id
  (`ChatRouting.PathSafeId`): letters, digits and `-._~` only, and not `.`
  or `..`. The source does not encode the path segment, and the browser's
  parsing of the address may change any other id in `location.pathname`
  (`/`, `#`, `?`, `\`, spaces, `"`, `<`, `>`, `` ` ``, `{`, `}`, non-ASCII
  characters, dot segments). Such an id is then read back differently, and
  the same send may redirect again. No such promise is made for those ids.
- ChatRouting.ProjectPathRoundTrip: states the round trip only for ids
  without `/`, because the page reads only the first path segment.
- ChatMessages.ParseUserTextRoundTrip: requires model and provider names
  without `]`. With one, the prefix is ambiguous, and no file of this core
  reads it back.
- ChatMessages.UserTextInjective: requires the same `]`-free names, for the
  same reason.
- FileProcessor.NumberedListRoundTrip: requires at least one requirement.
  The empty list never reaches the numbered list, because processing fails
  first.
- ChatWithFileUpload.Invoke: assumes the chat box calls its send function
  with the event and the text only, never with a project id. The chat box
  (`BaseChat`) is not part of this model.
- FileUpload.HandleFileUpload: reading the file is the `File.text` result.
  A thrown send callback is not modelled, so that path is not covered.

## Findings

| source | as written | input that shows it | evidently intended | confidence | as-written member | corrected member |
|---|---|---|---|---|---|---|
| app/routes/api.file-input.ts:107-109 | Each chunk read from the reply is split on `'\n'` by itself. A line cut by a chunk boundary becomes two pieces, and neither is a `data: ` line, so its frame is lost. | The reply text `data: {"type":"message"}` (a message frame) delivered as the two chunks `data` and `: {"type":"message"}` | The frames should depend only on the text of the reply: keep the unterminated tail of each chunk and prefix it to the next | not executed | StreamReframe.StraddlingLineLost | StreamReframe.ReframeBufferedIsChunkingInvariant |

`FileInputApi.Stream` uses the re-framer as written (`StreamReframe.Reframe`,
proved equal to the loop `StreamReframe.Execute`), so the route keeps the
defect: `FileInputApi.StreamDependsOnChunking` shows the lost frame in the
route's own stream. The corrected, buffered re-framer
(`StreamReframe.ReframeBuffered`) is defined only to state the intended
property.

=== FILE: chat_messages.dfy ===
/** The message-list helpers of `Chat.client.tsx`: the model/provider prefix
    of every outgoing user text, how a sent text enters the message list,
    the merge of parsed contents into the displayed list, and the body of
    the sampled callback that parses and persists the list. */
module ChatMessages {
  import opened Wrappers

  /** A message's content: plain text, or a list of parts. */
  datatype Part = TextPart(text: string) | ImagePart(image: string)
  datatype Content = Text(text: string) | Parts(parts: seq<Part>)

  /** A chat message with the fields the chat keeps. */
  datatype ChatMessage = ChatMessage(id: string, role: string, content: Content, annotations: seq<string>)

  const ModelTag := "[Model: "
  const ProviderTag := "]\n\n[Provider: "
  const PrefixEnd := "]\n\n"

  /** `[Model: <model>]\n\n[Provider: <provider>]\n\n`. */
  function Prefix(model: string, provider: string): string {
    ModelTag + model + ProviderTag + provider + PrefixEnd
  }

  /** Every user text the chat sends: the prefix, the artifact describing
      modified files (empty when there are none), and the content. */
  function UserText(model: string, provider: string, artifact: string, content: string): string {
    Prefix(model, provider) + artifact + content
  }

  /** `s` without `prefix`, when `s` starts with it. */
  function Behind(s: string, prefix: string): (r: Option<string>)
    ensures r.Some? <==> |prefix| <= |s| && s[..|prefix|] == prefix
    ensures r.Some? ==> s == prefix + r.value
  {
    if |prefix| <= |s| && s[..|prefix|] == prefix then Some(s[|prefix|..]) else None
  }

  lemma BehindPrefix(prefix: string, x: string)
    ensures Behind(prefix + x, prefix) == Some(x)
  {
    assert (prefix + x)[..|prefix|] == prefix;
  }

  /** `s` cut before its first `c` (the whole of `s` when there is none). */
  function UpTo(s: string, c: char): (r: (string, string))
    ensures s == r.0 + r.1
    ensures c !in r.0
    ensures r.1 != [] ==> r.1[0] == c
  {
    if |s| == 0 then ("", "")
    else if s[0] == c then ("", s)
    else
      var (before, after) := UpTo(s[1..], c);
      ([s[0]] + before, after)
  }

  /** Cutting `s + t` before `c` gives `s` back when `s` holds no `c` and
      `t` starts with one. */
  lemma {:induction false} UpToFirst(s: string, t: string, c: char)
    requires c !in s
    requires t != [] && t[0] == c
    ensures UpTo(s + t, c) == (s, t)
  {
    if |s| == 0 {
      assert s + t == t;
    } else {
      assert (s + t)[0] == s[0] && (s + t)[1..] == s[1..] + t;
      UpToFirst(s[1..], t, c);
      assert [s[0]] + s[1..] == s;
    }
  }

  /** Reads a user text back into model, provider and the rest, when it has
      the prefix shape. */
  function ParseUserText(text: string): (r: Option<(string, string, string)>)
    ensures r.Some? ==> ']' !in r.value.0 && ']' !in r.value.1
  {
    match Behind(text, ModelTag)
    case None => None
    case Some(r1) =>
      var (model, r2) := UpTo(r1, ']');
      match Behind(r2, ProviderTag)
      case None => None
      case Some(r3) =>
        var (provider, r4) := UpTo(r3, ']');
        match Behind(r4, PrefixEnd)
        case None => None
        case Some(rest) => Some((model, provider, rest))
  }

  /** The prefix followed by `rest`, regrouped from the right. */
  lemma PrefixThen(model: string, provider: string, rest: string)
    ensures Prefix(model, provider) + rest ==
      ModelTag + (model + (ProviderTag + (provider + (PrefixEnd + rest))))
  {
    Regroup(ModelTag, model, ProviderTag, provider, PrefixEnd, rest);
  }

  lemma Regroup(a: string, b: string, c: string, d: string, e: string, f: string)
    ensures a + b + c + d + e + f == a + (b + (c + (d + (e + f))))
  {
  }

  /** A text that parses is the prefix of the names read, followed by the
      rest read. */
  lemma ParseUserTextSound(text: string)
    requires ParseUserText(text).Some?
    ensures var r := ParseUserText(text).value;
      text == Prefix(r.0, r.1) + r.2
  {
    var r1 := Behind(text, ModelTag).value;
    var (model, r2) := UpTo(r1, ']');
    var r3 := Behind(r2, ProviderTag).value;
    var (provider, r4) := UpTo(r3, ']');
    var rest := Behind(r4, PrefixEnd).value;
    assert r4 == PrefixEnd + rest;
    assert r3 == provider + (PrefixEnd + rest);
    assert r2 == ProviderTag + (provider + (PrefixEnd + rest));
    PrefixThen(model, provider, rest);
    assert ParseUserText(text).value == (model, provider, rest);
  }

  /** Model and provider names without `]` are read back from the text,
      together with the artifact and content that follow the prefix. */
  lemma ParseUserTextRoundTrip(model: string, provider: string, artifact: string, content: string)
    requires ']' !in model && ']' !in provider
    ensures ParseUserText(UserText(model, provider, artifact, content)) == Some((model, provider, artifact + content))
  {
    var rest := artifact + content;
    var r3 := provider + (PrefixEnd + rest);
    var r1 := model + (ProviderTag + r3);
    PrefixThen(model, provider, rest);
    assert UserText(model, provider, artifact, content) == Prefix(model, provider) + rest;
    BehindPrefix(ModelTag, r1);
    UpToFirst(model, ProviderTag + r3, ']');
    BehindPrefix(ProviderTag, r3);
    UpToFirst(provider, PrefixEnd + rest, ']');
    BehindPrefix(PrefixEnd, rest);
  }

  /** Two user texts with `]`-free names are equal only when they agree on
      model, provider and the text after the prefix. */
  lemma UserTextInjective(m1: string, p1: string, a1: string, c1: string,
                          m2: string, p2: string, a2: string, c2: string)
    requires ']' !in m1 && ']' !in p1 && ']' !in m2 && ']' !in p2
    requires UserText(m1, p1, a1, c1) == UserText(m2, p2, a2, c2)
    ensures m1 == m2 && p1 == p2 && a1 + c1 == a2 + c2
  {
    ParseUserTextRoundTrip(m1, p1, a1, c1);
    ParseUserTextRoundTrip(m2, p2, a2, c2);
  }

  /** A user message carrying `text` and the attached images as parts. */
  function UserMessage(id: string, text: string, images: seq<string>): (m: ChatMessage)
    ensures m.role == "user" && m.annotations == []
    ensures m.content.Parts? && |m.content.parts| == 1 + |images|
    ensures m.content.parts[0] == TextPart(text)
    ensures forall i :: 0 <= i < |images| ==> m.content.parts[1 + i] == ImagePart(images[i])
  {
    ChatMessage(id, "user", Parts([TextPart(text)] + seq(|images|, i requires 0 <= i < |images| => ImagePart(images[i]))), [])
  }

  /** `messages.slice(0, -1)`: the list without its last message. */
  function DropLast(messages: seq<ChatMessage>): (r: seq<ChatMessage>)
    ensures |messages| > 0 ==> r == messages[..|messages| - 1]
    ensures |messages| == 0 ==> r == []
  {
    if |messages| == 0 then [] else messages[..|messages| - 1]
  }

  /** How a sent message enters the list: a chat not yet started is
      replaced by the single new message; a started chat first drops its
      last message when the previous reply failed, then appends. */
  function Deliver(messages: seq<ChatMessage>, chatStarted: bool, hadError: bool, m: ChatMessage): (r: seq<ChatMessage>)
    ensures |r| >= 1 && r[|r| - 1] == m
    ensures !chatStarted ==> |r| == 1
    ensures chatStarted && !hadError ==> r[..|r| - 1] == messages
    ensures chatStarted && hadError ==> r[..|r| - 1] == DropLast(messages)
  {
    if !chatStarted then [m]
    else if hadError then DropLast(messages) + [m]
    else messages + [m]
  }

  /** A retry after a failed reply replaces the failed last message rather
      than growing the list; otherwise the list grows by one and keeps every
      earlier message. */
  lemma DeliverAfterError(messages: seq<ChatMessage>, hadError: bool, m: ChatMessage)
    requires |messages| > 0
    ensures var r := Deliver(messages, true, hadError, m);
      && (hadError ==> |r| == |messages| && r[..|messages| - 1] == messages[..|messages| - 1])
      && (!hadError ==> |r| == |messages| + 1 && r[..|messages|] == messages)
  {
  }

  /** `parsedMessages[i] || content`: the parsed text when it is a
      non-empty string. */
  predicate HasParsed(parsed: map<nat, string>, i: nat) {
    i in parsed && parsed[i] != ""
  }

  /** `processedMessages`: each message with its parsed text as content
      where there is one, every other field untouched. */
  function Processed(messages: seq<ChatMessage>, parsed: map<nat, string>): (r: seq<ChatMessage>)
    ensures |r| == |messages|
    ensures forall i :: 0 <= i < |r| ==>
      r[i].id == messages[i].id && r[i].role == messages[i].role && r[i].annotations == messages[i].annotations
    ensures forall i :: 0 <= i < |r| ==>
      r[i].content == if HasParsed(parsed, i) then Text(parsed[i]) else messages[i].content
  {
    seq(|messages|, i requires 0 <= i < |messages| =>
      if HasParsed(parsed, i) then messages[i].(content := Text(parsed[i])) else messages[i])
  }

  /** Merging the same parsed texts twice changes nothing more, and with no
      parsed texts the list is shown as it is. */
  lemma ProcessedIdempotent(messages: seq<ChatMessage>, parsed: map<nat, string>)
    ensures Processed(Processed(messages, parsed), parsed) == Processed(messages, parsed)
    ensures Processed(messages, map[]) == messages
  {
  }

  /** What the sampled callback asks of its collaborators. */
  datatype Effect =
    | ParseMessages(messages: seq<ChatMessage>, isLoading: bool)
    | StoreHistory(messages: seq<ChatMessage>)

  /** The sampled callback's body: always parse; persist only when the list
      has grown past the initial messages. */
  function SampledCallback(messages: seq<ChatMessage>, initialMessages: seq<ChatMessage>, isLoading: bool): (effects: seq<Effect>)
    ensures 1 <= |effects| <= 2
    ensures effects[0] == ParseMessages(messages, isLoading)
    ensures |effects| == 2 <==> |messages| > |initialMessages|
    ensures |effects| == 2 ==> effects[1] == StoreHistory(messages)
  {
    [ParseMessages(messages, isLoading)] +
      (if |messages| > |initialMessages| then [StoreHistory(messages)] else [])
  }

  /** The effects of the callback over successive list states. */
  function SampledRun(states: seq<seq<ChatMessage>>, initialMessages: seq<ChatMessage>, isLoading: bool): seq<Effect> {
    if |states| == 0 then []
    else SampledCallback(states[0], initialMessages, isLoading) + SampledRun(states[1..], initialMessages, isLoading)
  }

  /** Over any run, every persisted list is longer than the initial list,
      and a run of states no longer than the initial list persists nothing. */
  lemma {:induction false} SampledRunStoresOnlyGrown(states: seq<seq<ChatMessage>>, initialMessages: seq<ChatMessage>, isLoading: bool)
    ensures forall e :: e in SampledRun(states, initialMessages, isLoading) && e.StoreHistory? ==>
      |e.messages| > |initialMessages|
    ensures (forall i :: 0 <= i < |states| ==> |states[i]| <= |initialMessages|) ==>
      forall e :: e in SampledRun(states, initialMessages, isLoading) ==> e.ParseMessages?
  {
    if |states| > 0 {
      SampledRunStoresOnlyGrown(states[1..], initialMessages, isLoading);
    }
  }
}

=== FILE: chat_routing.dfy ===
/** The routing prologue of `sendMessage` in `Chat.client.tsx`: which text a
    send carries, and whether the send is ignored, aborts the running reply,
    navigates to another page, or proceeds in place. Navigation is returned
    as a decision value, and URL encoding is a parameter. */
module ChatRouting {
  import opened Wrappers
  import opened Text

  const ChatPrefix := "/chat/"

  /** A string that is JavaScript-truthy: present and not empty. */
  predicate Present(o: Option<string>) {
    o.Some? && o.value != ""
  }

  /** The project id of the page at `pathname`: the path segment after
      `/chat/`, up to the next `/`; `None` on any other page. */
  function CurrentProjectId(pathname: string): (id: Option<string>)
    ensures id.Some? <==> StartsWith(pathname, ChatPrefix)
    ensures id.Some? ==> '/' !in id.value
  {
    if StartsWith(pathname, ChatPrefix) then
      SplitFirstPiece(pathname[6..], '/');
      Some(Split(pathname[6..], '/')[0])
    else None
  }

  /** The id is the third `/`-separated piece of the path, which is how the
      page reads it. */
  lemma CurrentProjectIdIsThirdSegment(pathname: string)
    requires StartsWith(pathname, ChatPrefix)
    ensures |Split(pathname, '/')| >= 3
    ensures CurrentProjectId(pathname) == Some(Split(pathname, '/')[2])
  {
    var rest := pathname[6..];
    assert pathname == "" + ['/'] + ("chat" + ['/'] + rest);
    SplitAtSeparator("", "chat" + ['/'] + rest, '/');
    SplitAtSeparator("chat", rest, '/');
  }

  /** The path of a project page. */
  function ProjectPath(projectId: string): string {
    ChatPrefix + projectId
  }

  /** A project page is read back as its own project exactly when the id
      holds no `/`; a longer path below the page reads the same id. */
  lemma ProjectPathRoundTrip(projectId: string, below: string)
    ensures CurrentProjectId(ProjectPath(projectId)) == Some(projectId) <==> '/' !in projectId
    ensures '/' !in projectId ==>
      CurrentProjectId(ProjectPath(projectId) + ['/'] + below) == Some(projectId)
  {
    var p := ProjectPath(projectId);
    assert p[6..] == projectId;
    if '/' !in projectId {
      SplitNoSeparator(projectId, '/');
      assert (p + ['/'] + below)[6..] == projectId + ['/'] + below;
      SplitAtSeparator(projectId, below, '/');
    } else {
      SplitFirstPiece(projectId, '/');
    }
  }

  /** What `sendMessage` consults. `messageInput` and `projectId` are
      `None` when the caller passed nothing; `eventKeys` is the number of
      own keys of the event object; `input` is the text box; `pathname` is
      the current page. */
  datatype SendRequest = SendRequest(
    eventKeys: nat,
    messageInput: Option<string>,
    projectId: Option<string>,
    input: string,
    isLoading: bool,
    pathname: string)

  /** `messageInput || input`. */
  function MessageContent(s: SendRequest): (c: string)
    ensures Present(s.messageInput) ==> c == s.messageInput.value
    ensures !Present(s.messageInput) ==> c == s.input
  {
    if Present(s.messageInput) then s.messageInput.value else s.input
  }

  /** A send whose event object has no own keys, as webhook and file-upload
      sends pass. */
  predicate IsWebhookRequest(s: SendRequest) {
    s.eventKeys == 0
  }

  datatype Decision =
    | Ignore
    | Abort
    | ToProject(projectId: string, content: string)
    | ToNewProject(content: string)
    | Proceed(content: string)

  predicate Sends(d: Decision) {
    d.ToProject? || d.ToNewProject? || d.Proceed?
  }

  /** The prologue of `sendMessage`: a blank text is ignored, a send while
      a reply streams aborts it, a project id other than the current page's
      navigates to that project, a keyless send without project id on a
      project page navigates home to start a new project, and everything
      else proceeds in place. */
  function Decide(s: SendRequest): (d: Decision)
    ensures d.Ignore? <==> Blank(MessageContent(s))
    ensures d.Abort? <==> !Blank(MessageContent(s)) && s.isLoading
    ensures Sends(d) ==> d.content == MessageContent(s)
    ensures d.ToProject? ==> Present(s.projectId) && d.projectId == s.projectId.value
  {
    var content := MessageContent(s);
    TrimEmptyIffBlank(content);
    if Trim(content) == "" then Ignore
    else if s.isLoading then Abort
    else
      var current := CurrentProjectId(s.pathname);
      if Present(s.projectId) then
        if current != s.projectId then ToProject(s.projectId.value, content)
        else Proceed(content)
      else if IsWebhookRequest(s) && Present(current) then ToNewProject(content)
      else Proceed(content)
  }

  /** A send navigates to a project exactly when it names a project other
      than the current page's. */
  lemma ToProjectExactlyWhen(s: SendRequest)
    ensures Decide(s).ToProject? <==>
      && !Blank(MessageContent(s)) && !s.isLoading
      && Present(s.projectId) && CurrentProjectId(s.pathname) != s.projectId
  {
  }

  /** A send navigates home exactly when it is keyless, names no project,
      and the current page is a project page with a non-empty id. */
  lemma ToNewProjectExactlyWhen(s: SendRequest)
    ensures Decide(s).ToNewProject? <==>
      && !Blank(MessageContent(s)) && !s.isLoading
      && !Present(s.projectId) && IsWebhookRequest(s) && Present(CurrentProjectId(s.pathname))
  {
  }

  /** A send from the text box (an event with keys) that names no project
      stays in place on every page, a project page included. */
  lemma UserSendStaysInPlace(s: SendRequest)
    requires !IsWebhookRequest(s) && !Present(s.projectId)
    requires !Blank(MessageContent(s)) && !s.isLoading
    ensures Decide(s) == Proceed(MessageContent(s))
  {
  }

  /** An address: a path and a query string. */
  function Address(path: string, query: string): string {
    path + "?" + query
  }

  /** The path part of an address: everything before the first `?`. */
  function PathOf(href: string): string {
    Split(href, '?')[0]
  }

  /** The path of an address is read back whole when it holds no `?`. */
  lemma PathOfAddress(path: string, query: string)
    requires '?' !in path
    ensures PathOf(Address(path, query)) == path
  {
    assert Address(path, query) == path + ['?'] + query;
    SplitAtSeparator(path, query, '?');
  }

  /** The address a navigation decision goes to; `encode` stands for
      `encodeURIComponent`. Other decisions have none. */
  function Href(d: Decision, encode: string -> string): (href: Option<string>)
    ensures href.Some? <==> d.ToProject? || d.ToNewProject?
  {
    match d
    case ToProject(id, content) =>
      Some(Address(ProjectPath(id), "initialRequirements=" + encode(content)))
    case ToNewProject(content) =>
      Some(Address("/", "initialRequirements=" + encode(content) + "&fromWebhook=true"))
    case _ => None
  }

  /** A character the browser keeps unchanged in a path: an unreserved
      character of section 2.3 of RFC 3986 (letters, digits, `-`, `.`, `_`,
      `~`). */
  predicate Unreserved(c: char) {
    || 'a' <= c <= 'z' || 'A' <= c <= 'Z' || '0' <= c <= '9'
    || c == '-' || c == '.' || c == '_' || c == '~'
  }

  /** A project id that survives the browser's parsing of the page address
      unchanged: unreserved characters only, and not a dot segment. */
  predicate PathSafeId(id: string) {
    && (forall k :: 0 <= k < |id| ==> Unreserved(id[k]))
    && id != "." && id != ".."
  }

  /** A string with one separator splits into the two sides. */
  lemma SplitInTwo(a: string, b: string, sep: char)
    requires sep !in a && sep !in b
    ensures Split(a + [sep] + b, sep) == [a, b]
  {
    SplitAppend(a, b, sep);
    SplitNoSeparator(a, sep);
    SplitNoSeparator(b, sep);
  }

  /** The address of a navigation carries the message content as its only
      `initialRequirements` parameter: split on `?`, it is exactly the
      target path and the query; split on `&`, the query of a project
      redirect is that one parameter, and the query of a home redirect is
      that parameter followed by `fromWebhook=true`. As long as the encoded
      content holds no `?` or `&`, it can neither forge nor drop the flag. */
  lemma HrefCarriesContent(d: Decision, encode: string -> string)
    requires d.ToProject? || d.ToNewProject?
    requires d.ToProject? ==> '?' !in d.projectId
    requires '?' !in encode(d.content) && '&' !in encode(d.content)
    ensures var href := Href(d, encode).value;
      var param := "initialRequirements=" + encode(d.content);
      && |Split(href, '?')| == 2
      && Split(href, '?')[0] == (if d.ToProject? then ProjectPath(d.projectId) else "/")
      && (d.ToProject? ==> Split(Split(href, '?')[1], '&') == [param])
      && (d.ToNewProject? ==> Split(Split(href, '?')[1], '&') == [param, "fromWebhook=true"])
  {
    var param := "initialRequirements=" + encode(d.content);
    assert '?' !in param && '&' !in param by {
      assert forall k :: 0 <= k < |param| ==>
        param[k] == if k < 20 then "initialRequirements="[k] else encode(d.content)[k - 20];
    }
    if d.ToProject? {
      var path := ProjectPath(d.projectId);
      assert '?' !in path by {
        assert forall k :: 0 <= k < |path| ==>
          path[k] == if k < 6 then ChatPrefix[k] else d.projectId[k - 6];
      }
      assert Href(d, encode).value == path + ['?'] + param;
      SplitInTwo(path, param, '?');
      SplitNoSeparator(param, '&');
    } else {
      var query := param + "&fromWebhook=true";
      assert query == param + ['&'] + "fromWebhook=true";
      assert '?' !in query by {
        assert forall k :: 0 <= k < |query| ==>
          query[k] == if k < |param| then param[k] else "&fromWebhook=true"[k - |param|];
      }
      assert Href(d, encode).value == "/" + ['?'] + query;
      SplitInTwo("/", query, '?');
      SplitInTwo(param, "fromWebhook=true", '&');
    }
  }

  /** After navigating to a project, the same send made on the page it lands
      on proceeds in place: one redirect is never followed by another, as
      long as the id is one the browser keeps unchanged in the path. */
  lemma ProjectRedirectSettles(s: SendRequest, encode: string -> string)
    requires Decide(s).ToProject?
    requires PathSafeId(s.projectId.value)
    ensures var landed := s.(pathname := PathOf(Href(Decide(s), encode).value));
      Decide(landed) == Proceed(MessageContent(s))
  {
    var id := s.projectId.value;
    assert '?' !in ProjectPath(id) by {
      assert forall k :: 0 <= k < |ProjectPath(id)| ==>
        ProjectPath(id)[k] == if k < 6 then ChatPrefix[k] else id[k - 6];
    }
    PathOfAddress(ProjectPath(id), "initialRequirements=" + encode(MessageContent(s)));
    ProjectPathRoundTrip(id, "");
  }

  /** After navigating home, the same keyless send made there proceeds in
      place: the home page has no project id. */
  lemma HomeRedirectSettles(s: SendRequest, encode: string -> string)
    requires Decide(s).ToNewProject?
    ensures var landed := s.(pathname := PathOf(Href(Decide(s), encode).value));
      && PathOf(Href(Decide(s), encode).value) == "/"
      && Decide(landed) == Proceed(MessageContent(s))
  {
    PathOfAddress("/", "initialRequirements=" + encode(MessageContent(s)) + "&fromWebhook=true");
  }
}

=== FILE: chat_with_file_upload.dfy ===
/** `ChatWithFileUpload.tsx`: the handler that forwards an uploaded text to
    the chat's send function and to the optional upload callback, and the
    sender handed to the chat box. Together with `FileUpload` and
    `ChatRouting` it fixes where an uploaded file ends up. */
module ChatWithFileUpload {
  import opened Wrappers
  import opened Text
  import opened ChatRouting
  import FileUpload

  /** A callback invocation. `SendMessageCall` carries the event (by its
      number of own keys), the text and the project id it was given. */
  datatype Call =
    | SendMessageCall(eventKeys: nat, messageInput: Option<string>, projectId: Option<string>)
    | FileUploadCall(content: string)

  /** `handleRequirementsUpload`: nothing for a missing or empty text;
      otherwise the send function, when there is one, gets the event, text
      and project id unchanged, and then the upload callback, when there is
      one, gets the text. */
  function HandleRequirementsUpload(eventKeys: nat, content: Option<string>, projectId: Option<string>,
                                    hasSendMessage: bool, hasOnFileUpload: bool): (calls: seq<Call>)
    ensures !Present(content) ==> calls == []
    ensures Present(content) ==>
      |calls| == (if hasSendMessage then 1 else 0) + (if hasOnFileUpload then 1 else 0)
    ensures forall i :: 0 <= i < |calls| && calls[i].SendMessageCall? ==>
      i == 0 && calls[i] == SendMessageCall(eventKeys, content, projectId)
    ensures forall i :: 0 <= i < |calls| && calls[i].FileUploadCall? ==>
      i == |calls| - 1 && calls[i] == FileUploadCall(content.value)
  {
    if !Present(content) then []
    else
      (if hasSendMessage then [SendMessageCall(eventKeys, content, projectId)] else []) +
      (if hasOnFileUpload then [FileUploadCall(content.value)] else [])
  }

  /** The upload callback runs whether or not there is a send function: a
      present text always reaches it. */
  lemma UploadCallbackWithoutSender(eventKeys: nat, content: string, projectId: Option<string>)
    requires content != ""
    ensures HandleRequirementsUpload(eventKeys, Some(content), projectId, false, true) == [FileUploadCall(content)]
    ensures HandleRequirementsUpload(eventKeys, Some(content), projectId, true, true) ==
      [SendMessageCall(eventKeys, Some(content), projectId), FileUploadCall(content)]
  {
  }

  /** The sender the chat box receives: the chat's own, or one that does
      nothing. */
  datatype Sender = ChatSender | NoOpSender

  function BaseChatSender(hasSendMessage: bool): (s: Sender)
    ensures s.ChatSender? <==> hasSendMessage
  {
    if hasSendMessage then ChatSender else NoOpSender
  }

  /** What a send from the chat box causes through its sender. */
  function Invoke(s: Sender, eventKeys: nat, messageInput: Option<string>): (calls: seq<Call>)
    ensures s.NoOpSender? ==> calls == []
    ensures s.ChatSender? ==> calls == [SendMessageCall(eventKeys, messageInput, None)]
  {
    match s
    case ChatSender => [SendMessageCall(eventKeys, messageInput, None)]
    case NoOpSender => []
  }

  /** The calls an upload leads to: the upload handler's send callback is
      always this component's forwarding handler. */
  function UploadCalls(file: Option<FileUpload.File>, hasSendMessage: bool, hasOnFileUpload: bool): seq<Call> {
    if file.Some? && FileUpload.Acceptable(file.value) && file.value.text.Success? then
      HandleRequirementsUpload(0, Some(file.value.text.value), None, hasSendMessage, hasOnFileUpload)
    else []
  }

  /** The forwarded text is the one the upload trace hands on. */
  lemma UploadCallsFollowTrace(file: Option<FileUpload.File>, hasSendMessage: bool, hasOnFileUpload: bool)
    ensures UploadCalls(file, hasSendMessage, hasOnFileUpload) != [] ==>
      exists c :: FileUpload.Send(c) in FileUpload.HandleFileUpload(file, true) &&
        UploadCalls(file, hasSendMessage, hasOnFileUpload) ==
          HandleRequirementsUpload(0, Some(c), None, hasSendMessage, hasOnFileUpload)
    ensures forall c :: FileUpload.Send(c) in FileUpload.HandleFileUpload(file, true) ==>
      UploadCalls(file, hasSendMessage, hasOnFileUpload) ==
        HandleRequirementsUpload(0, Some(c), None, hasSendMessage, hasOnFileUpload)
  {
    FileUpload.SendsExactlyWhen(file, true);
  }

  /** An empty file is announced as processed, yet reaches no callback. */
  lemma EmptyFileReachesNobody(f: FileUpload.File, hasSendMessage: bool, hasOnFileUpload: bool)
    requires FileUpload.Acceptable(f) && f.text == Success("")
    ensures FileUpload.Notice(FileUpload.ProcessedNotice) in FileUpload.HandleFileUpload(Some(f), true)
    ensures UploadCalls(Some(f), hasSendMessage, hasOnFileUpload) == []
  {
  }

  /** The send an upload causes, seen by `sendMessage`: a keyless event, the
      file text, no project id. */
  function UploadSend(content: string, input: string, isLoading: bool, pathname: string): SendRequest {
    SendRequest(0, Some(content), None, input, isLoading, pathname)
  }

  /** An upload made on a project page starts a new project: its text is
      forwarded as a keyless send without project id, which navigates home;
      made on any other page, it proceeds in place. */
  lemma UploadRoutesLikeWebhook(f: FileUpload.File, input: string, pathname: string, hasOnFileUpload: bool)
    requires FileUpload.Acceptable(f) && f.text.Success? && !Blank(f.text.value)
    ensures var c := f.text.value;
      && UploadCalls(Some(f), true, hasOnFileUpload)[0] == SendMessageCall(0, Some(c), None)
      && (Present(CurrentProjectId(pathname)) ==>
            Decide(UploadSend(c, input, false, pathname)) == ToNewProject(c))
      && (!Present(CurrentProjectId(pathname)) ==>
            Decide(UploadSend(c, input, false, pathname)) == Proceed(c))
  {
  }

  /** A file of blanks is forwarded, but the send ignores it. */
  lemma BlankFileIgnored(f: FileUpload.File, input: string, pathname: string, isLoading: bool, hasOnFileUpload: bool)
    requires FileUpload.Acceptable(f) && f.text.Success? && f.text.value != "" && Blank(f.text.value)
    ensures UploadCalls(Some(f), true, hasOnFileUpload)[0] == SendMessageCall(0, Some(f.text.value), None)
    ensures Decide(UploadSend(f.text.value, input, isLoading, pathname)) == Ignore
  {
  }
}

=== FILE: file_input_api.dfy ===
/** The POST `action` of `api.file-input.ts`: a webhook posts requirements
    text, the processor turns it into a chat seed, the seed is sent to the
    internal chat endpoint, and the endpoint's reply is re-framed into the
    outward data stream. The chat endpoint is a parameter (`ChatEngine`), and
    so is `JSON.parse` for the stream payloads. */
module FileInputApi {
  import opened Wrappers
  import opened Text
  import opened Json
  import opened FileProcessor
  import opened StreamReframe

  /** The request body as the action reads it. `Unreadable` when
      `request.json()` throws, or when the body is JSON `null` and reading
      its first property throws; a body that is not an object behaves as the
      empty object. */
  datatype Body = Unreadable(thrown: Thrown) | Fields(fields: map<string, Value>)

  datatype Request = Request(httpMethod: string, body: Body)

  /** The JSON body posted to the chat endpoint. `projectId` is `Undefined`
      when the webhook gave none, which the serialisation omits. */
  datatype ChatRequest = ChatRequest(
    messages: seq<Message>,
    contextOptimization: bool,
    files: map<string, string>,
    promptId: string,
    projectId: Value)

  /** What the internal `fetch` yields: it throws, or the endpoint answers
      with an `ok` flag and a body, read as decoded text chunks, which may be
      absent. */
  datatype ChatReply = Unreachable(thrown: Thrown) | Replied(ok: bool, body: Option<seq<string>>)

  type ChatEngine = ChatRequest -> ChatReply

  /** One part of the outward data stream: a data frame, or the error text
      the stream's error handler produced when the writer threw. */
  datatype StreamPart = Data(frame: Frame) | StreamError(text: string)

  /** The replies: the plain-text 405, a JSON `{error}` body, or the event
      stream (status 200). */
  datatype Response =
    | PlainText(status: nat, text: string)
    | ErrorJson(status: nat, error: string)
    | EventStream(parts: seq<StreamPart>)

  const MethodNotAllowed := PlainText(405, "Method not allowed")
  const DefaultFileName := "webhook-requirements.txt"
  const PromptId := "file-input"
  const ChatFailed := "Failed to process chat request"
  const ReaderMissing := "Failed to get response reader"
  const FallbackError := "Failed to process file input"

  /** The `error` field of the catch-all reply: the message of an `Error`,
      a fixed text for anything else. */
  function ErrorText(t: Thrown): string {
    MessageOr(t, FallbackError)
  }

  /** The request fields after the defaults are applied. */
  datatype Submission = Submission(content: Value, fileName: Value, projectId: Value, isExistingProject: bool)

  /** `content || requirements || ''`, `fileName || default`, and the project
      flag `!!projectId`. */
  function Normalize(fields: map<string, Value>): (n: Submission)
    ensures Truthy(n.content) <==> Truthy(Get(fields, "content")) || Truthy(Get(fields, "requirements"))
    ensures Truthy(Get(fields, "content")) ==> n.content == Get(fields, "content")
    ensures !Truthy(Get(fields, "content")) && Truthy(Get(fields, "requirements")) ==>
      n.content == Get(fields, "requirements")
    ensures !Truthy(n.content) ==> n.content == Str("")
    ensures Truthy(n.fileName)
    ensures n.projectId == Get(fields, "projectId")
    ensures n.isExistingProject <==> Truthy(Get(fields, "projectId"))
  {
    Submission(
      Or(Or(Get(fields, "content"), Get(fields, "requirements")), Str("")),
      Or(Get(fields, "fileName"), Str(DefaultFileName)),
      Get(fields, "projectId"),
      Truthy(Get(fields, "projectId")))
  }

  /** `FileProcessor.processContent` applied to whatever value `content`
      holds: a value that is not a string has no `split`, and the resulting
      error is rewrapped like every other processing failure. */
  function ProcessValue(content: Value, isExistingProject: bool, workDir: string): (r: Result<ProcessorResult, string>)
    ensures r.Failure? ==> r.error == ProcessingFailed
    ensures r.Success? <==> content.Str? && !Blank(content.s)
    ensures r.Success? ==> r.value.isExistingProject == isExistingProject
  {
    if content.Str? then ProcessContent(content.s, isExistingProject, workDir)
    else Failure(ProcessingFailed)
  }

  /** The chat request built from a seed; the seed's files are always
      present, so `files || {}` is the seed's files. */
  function ChatRequestOf(seed: ProcessorResult, projectId: Value): ChatRequest {
    ChatRequest(seed.messages, seed.contextOptimization, seed.files, PromptId, projectId)
  }

  /** Frames as data parts, in order. */
  function DataParts(frames: seq<Frame>): (parts: seq<StreamPart>)
    ensures |parts| == |frames|
    ensures forall i :: 0 <= i < |parts| ==> parts[i] == Data(frames[i])
  {
    seq(|frames|, i requires 0 <= i < |frames| => Data(frames[i]))
  }

  /** The outward stream: the opening frame is written before the reader is
      fetched, so a missing body yields the opening frame and then the error
      text; otherwise the reply re-framed chunk by chunk, as the loop is
      written. */
  function Stream(body: Option<seq<string>>, parse: string -> Parsed, isExistingProject: bool): (parts: seq<StreamPart>)
    ensures |parts| >= 2
    ensures parts[0] == Data(Opening(isExistingProject))
    ensures body.None? ==> parts[1..] == [StreamError("Error: " + ReaderMissing)]
    ensures body.Some? ==> parts[|parts| - 1] == Data(Closing(isExistingProject))
  {
    match body
    case None => [Data(Opening(isExistingProject)), StreamError("Error: " + ReaderMissing)]
    case Some(chunks) => DataParts(Reframe(chunks, parse, isExistingProject))
  }

  /** The route once the body is read: process the submission, call the
      chat endpoint with the seed, and stream its reply. */
  function Respond(content: Value, projectId: Value, isExistingProject: bool,
                   engine: ChatEngine, parse: string -> Parsed, workDir: string): (r: Response)
    ensures !r.PlainText?
    ensures r.ErrorJson? ==> r.status == 500
    ensures r.EventStream? ==> |r.parts| >= 2 && r.parts[0] == Data(Opening(isExistingProject))
  {
    match ProcessValue(content, isExistingProject, workDir)
    case Failure(e) => ErrorJson(500, e)
    case Success(seed) =>
      match engine(ChatRequestOf(seed, projectId))
      case Unreachable(t) => ErrorJson(500, ErrorText(t))
      case Replied(ok, body) =>
        if !ok then ErrorJson(500, ChatFailed)
        else EventStream(Stream(body, parse, isExistingProject))
  }

  /** The route's `action`; `workDir` stands for the work-directory constant. */
  function Action(req: Request, engine: ChatEngine, parse: string -> Parsed, workDir: string): (r: Response)
    ensures r.PlainText? <==> req.httpMethod != "POST"
    ensures r.PlainText? ==> r == MethodNotAllowed
    ensures r.ErrorJson? ==> r.status == 500
    ensures r.EventStream? ==>
      (req.body.Fields? && |r.parts| >= 2 &&
       r.parts[0] == Data(Opening(Truthy(Get(req.body.fields, "projectId")))))
  {
    if req.httpMethod != "POST" then MethodNotAllowed
    else
      match req.body
      case Unreadable(t) => ErrorJson(500, ErrorText(t))
      case Fields(fields) =>
        var n := Normalize(fields);
        Respond(n.content, n.projectId, n.isExistingProject, engine, parse, workDir)
  }

  /** A readable POST body whose normalised content is a string that is not
      blank: exactly the requests whose processing succeeds. */
  predicate Processable(req: Request) {
    && req.httpMethod == "POST"
    && req.body.Fields?
    && Normalize(req.body.fields).content.Str?
    && !Blank(Normalize(req.body.fields).content.s)
  }

  /** The request the chat endpoint receives for a processable request. */
  function EngineRequest(req: Request, workDir: string): ChatRequest
    requires Processable(req)
  {
    var n := Normalize(req.body.fields);
    ChatRequestOf(ProcessValue(n.content, n.isExistingProject, workDir).value, n.projectId)
  }

  /** The chat endpoint is consulted only for a processable request: for any
      other request the reply does not depend on the endpoint at all, and a
      request without usable content is answered with the processing error. */
  lemma EngineOnlyForProcessable(req: Request, e1: ChatEngine, e2: ChatEngine, parse: string -> Parsed, workDir: string)
    ensures !Processable(req) ==> Action(req, e1, parse, workDir) == Action(req, e2, parse, workDir)
    ensures req.httpMethod == "POST" && req.body.Fields? && !Processable(req) ==>
      Action(req, e1, parse, workDir) == ErrorJson(500, ProcessingFailed)
  {
  }

  /** A processable request is answered from the endpoint's reply to
      `EngineRequest`: a thrown fetch or a non-ok reply becomes a 500, an ok
      reply becomes the stream of its body. */
  lemma ReplyFollowsEngine(req: Request, engine: ChatEngine, parse: string -> Parsed, workDir: string)
    requires Processable(req)
    ensures var reply := engine(EngineRequest(req, workDir));
      var r := Action(req, engine, parse, workDir);
      && (reply.Unreachable? ==> r == ErrorJson(500, ErrorText(reply.thrown)))
      && (reply.Replied? && !reply.ok ==> r == ErrorJson(500, ChatFailed))
      && (reply.Replied? && reply.ok ==>
            r == EventStream(Stream(reply.body, parse, Truthy(Get(req.body.fields, "projectId")))))
  {
  }

  /** The response is a stream exactly when the request is processable and
      the endpoint answers ok. */
  lemma StreamsExactlyWhen(req: Request, engine: ChatEngine, parse: string -> Parsed, workDir: string)
    ensures Action(req, engine, parse, workDir).EventStream? <==>
      Processable(req) &&
      var reply := engine(EngineRequest(req, workDir));
      reply.Replied? && reply.ok
  {
  }

  /** What the endpoint receives is the processor's seed for the submitted
      content: prompt id `file-input`, the project id as given, the seed
      messages, and a requirements file that re-extracts to exactly the
      requirements of the submitted text. */
  lemma EngineSeesSeed(req: Request, workDir: string)
    requires Processable(req)
    ensures var n := Normalize(req.body.fields);
      var cr := EngineRequest(req, workDir);
      && n.content.Str?
      && cr.promptId == PromptId
      && cr.projectId == Get(req.body.fields, "projectId")
      && cr.messages == ProcessContent(n.content.s, n.isExistingProject, workDir).value.messages
      && RequirementsPath(workDir) in cr.files
      && ExtractRequirements(cr.files[RequirementsPath(workDir)]) == ExtractRequirements(n.content.s)
      && |ExtractRequirements(n.content.s)| > 0
  {
    var n := Normalize(req.body.fields);
    RequirementsFileRoundTrip(n.content.s, n.isExistingProject, workDir);
    NoRequirementsIffBlank(n.content.s);
  }

  /** One flag decides both the seed's prompts and the stream's progress
      texts: the seed is built for an existing project exactly when the
      opening frame says feature requests were processed. */
  lemma OneFlagForSeedAndStream(req: Request, engine: ChatEngine, parse: string -> Parsed, workDir: string)
    requires Processable(req)
    ensures var n := Normalize(req.body.fields);
      var seed := ProcessValue(n.content, n.isExistingProject, workDir).value;
      var r := Action(req, engine, parse, workDir);
      && seed.isExistingProject == Truthy(Get(req.body.fields, "projectId"))
      && (r.EventStream? ==> r.parts[0] == Data(Opening(seed.isExistingProject)))
  {
  }

  /** With a reply body, the stream is exactly the re-framed reply: opening
      frame, forwarded frames, closing frame, and no error part; without one,
      it is cut short after the opening frame. */
  lemma StreamOfBody(body: Option<seq<string>>, parse: string -> Parsed, isExistingProject: bool)
    ensures body.Some? ==>
      var frames := Reframe(body.value, parse, isExistingProject);
      var parts := Stream(body, parse, isExistingProject);
      && |parts| == |frames|
      && (forall i :: 0 <= i < |parts| ==> parts[i] == Data(frames[i]))
      && (forall i :: 0 <= i < |parts| ==> !parts[i].StreamError?)
    ensures body.None? ==>
      |Stream(body, parse, isExistingProject)| == 2 &&
      Stream(body, parse, isExistingProject)[1].StreamError?
  {
  }

  /** The stream depends on where the reply is cut, not only on its text:
      the reply `data: {"type":"message"}` sent whole streams its message
      frame between the two progress frames, and sent as `"data"`,
      `": {"type":"message"}"` streams only the two progress frames. */
  lemma StreamDependsOnChunking(isExistingProject: bool)
    ensures Concat([CutHead, CutTail]) == Concat([CutHead + CutTail])
    ensures |Stream(Some([CutHead + CutTail]), ParseOneMessage, isExistingProject)| == 3
    ensures Stream(Some([CutHead + CutTail]), ParseOneMessage, isExistingProject)[1] == Data(MessageFrame(Undefined, Undefined))
    ensures Stream(Some([CutHead, CutTail]), ParseOneMessage, isExistingProject)
      == [Data(Opening(isExistingProject)), Data(Closing(isExistingProject))]
  {
    StraddlingLineLost();
    StreamsOfOneAndNoFrame([CutHead + CutTail], [CutHead, CutTail], ParseOneMessage, isExistingProject,
      MessageFrame(Undefined, Undefined));
  }

  /** The streams of a reply that forwards one frame and of one that
      forwards none. */
  lemma StreamsOfOneAndNoFrame(one: seq<string>, none: seq<string>, parse: string -> Parsed,
                               isExistingProject: bool, f: Frame)
    requires FramesOfChunks(one, LineFrame(parse)) == [f]
    requires FramesOfChunks(none, LineFrame(parse)) == []
    ensures |Stream(Some(one), parse, isExistingProject)| == 3
    ensures Stream(Some(one), parse, isExistingProject)[1] == Data(f)
    ensures Stream(Some(none), parse, isExistingProject)
      == [Data(Opening(isExistingProject)), Data(Closing(isExistingProject))]
  {
    var o, c := Opening(isExistingProject), Closing(isExistingProject);
    assert Reframe(none, parse, isExistingProject) == [o, c];
  }

  /** A truthy `content` field wins over `requirements`, which is then
      never looked at. */
  lemma ContentFieldWins(fields: map<string, Value>, other: Value)
    requires Truthy(Get(fields, "content"))
    ensures Normalize(fields["requirements" := other]) == Normalize(fields)
    ensures Normalize(fields).content == Get(fields, "content")
  {
    assert Get(fields["requirements" := other], "content") == Get(fields, "content");
    assert Get(fields["requirements" := other], "fileName") == Get(fields, "fileName");
    assert Get(fields["requirements" := other], "projectId") == Get(fields, "projectId");
  }

  /** The file name is only logged: changing it never changes the response. */
  lemma FileNameIgnored(req: Request, name: Value, engine: ChatEngine, parse: string -> Parsed, workDir: string)
    requires req.body.Fields?
    ensures var req' := req.(body := Fields(req.body.fields["fileName" := name]));
      Action(req', engine, parse, workDir) == Action(req, engine, parse, workDir)
  {
    var fields := req.body.fields;
    var fields' := fields["fileName" := name];
    assert Get(fields', "content") == Get(fields, "content");
    assert Get(fields', "requirements") == Get(fields, "requirements");
    assert Get(fields', "projectId") == Get(fields, "projectId");
  }
}

=== FILE: file_processor.dfy ===
/** The requirements seed builder: free text becomes trimmed, non-blank
    requirement lines, a two-message conversation seed and two auxiliary
    files (`FileProcessor.processContent`). */
module FileProcessor {
  import opened Wrappers
  import opened Text
  import opened Prompts

  /** A chat message of the seed (`Message` of the chat SDK: id, role, text). */
  datatype Message = Message(id: string, role: string, content: string)

  /** What a successful processing hands to the chat engine. */
  datatype ProcessorResult = ProcessorResult(
    messages: seq<Message>,
    contextOptimization: bool,
    isExistingProject: bool,
    files: map<string, string>)

  /** The error raised inside the processing when no requirement is found. */
  const NoRequirementsError := "No valid requirements found in the file"
  /** The only error a caller of `ProcessContent` ever sees. */
  const ProcessingFailed := "Failed to process file content"

  /** A requirement line: non-empty, already trimmed, and a single line. */
  predicate IsRequirement(r: string) {
    r != "" && Trimmed(r) && '\n' !in r
  }

  /** Each line's contribution, concatenated in line order. */
  function ConcatMap(lines: seq<string>, f: string -> seq<string>): seq<string> {
    if |lines| == 0 then [] else f(lines[0]) + ConcatMap(lines[1..], f)
  }

  /** Mapping distributes over concatenation of line lists. */
  lemma {:induction false} ConcatMapAppend(a: seq<string>, b: seq<string>, f: string -> seq<string>)
    ensures ConcatMap(a + b, f) == ConcatMap(a, f) + ConcatMap(b, f)
    decreases |a|
  {
    if |a| == 0 {
      assert a + b == b;
    } else {
      assert (a + b)[0] == a[0];
      assert (a + b)[1..] == a[1..] + b;
      ConcatMapAppend(a[1..], b, f);
    }
  }

  /** One line's contribution: the line trimmed, or nothing when it is blank. */
  function KeptLine(line: string): seq<string> {
    var t := Trim(line);
    if t == "" then [] else [t]
  }

  /** `lines.filter(l => l.trim()).map(l => l.trim())`: every line that is not
      blank, trimmed, in the original order. */
  function KeepNonBlank(lines: seq<string>): seq<string> {
    ConcatMap(lines, KeptLine)
  }

  /** The requirements of a text: its `'\n'`-separated lines, blank ones
      dropped, each trimmed. */
  function ExtractRequirements(content: string): (reqs: seq<string>)
    ensures forall i :: 0 <= i < |reqs| ==> IsRequirement(reqs[i])
  {
    var lines := Split(content, '\n');
    SplitPiecesLackSeparator(content, '\n');
    KeepNonBlankTrimmed(lines);
    KeepNonBlankSingleLines(lines);
    KeepNonBlank(lines)
  }

  /** One step of the filter: the first line's contribution, then the rest. */
  lemma KeepNonBlankCons(lines: seq<string>)
    requires |lines| > 0
    ensures KeepNonBlank(lines) == KeptLine(lines[0]) + KeepNonBlank(lines[1..])
  {
  }

  /** What is kept is trimmed and non-empty. */
  lemma {:induction false} KeepNonBlankTrimmed(lines: seq<string>)
    ensures forall i :: 0 <= i < |KeepNonBlank(lines)| ==>
      KeepNonBlank(lines)[i] != "" && Trimmed(KeepNonBlank(lines)[i])
  {
    if |lines| > 0 {
      KeepNonBlankCons(lines);
      KeepNonBlankTrimmed(lines[1..]);
    }
  }

  /** Lines without a line break stay without one once kept. */
  lemma {:induction false} KeepNonBlankSingleLines(lines: seq<string>)
    requires forall j :: 0 <= j < |lines| ==> '\n' !in lines[j]
    ensures forall i :: 0 <= i < |KeepNonBlank(lines)| ==> '\n' !in KeepNonBlank(lines)[i]
  {
    if |lines| > 0 {
      KeepNonBlankCons(lines);
      TrimKeepsAbsent(lines[0], '\n');
      KeepNonBlankSingleLines(lines[1..]);
    }
  }

  /** Filtering distributes over concatenation of line lists. */
  lemma KeepNonBlankAppend(a: seq<string>, b: seq<string>)
    ensures KeepNonBlank(a + b) == KeepNonBlank(a) + KeepNonBlank(b)
  {
    ConcatMapAppend(a, b, KeptLine);
  }

  /** Every line of the list is blank. */
  predicate AllBlank(lines: seq<string>) {
    |lines| == 0 || (Blank(lines[0]) && AllBlank(lines[1..]))
  }

  /** Nothing is kept exactly when every line is blank. */
  lemma {:induction false} KeepNonBlankEmpty(lines: seq<string>)
    ensures KeepNonBlank(lines) == [] <==> AllBlank(lines)
  {
    if |lines| > 0 {
      KeepNonBlankCons(lines);
      TrimEmptyIffBlank(lines[0]);
      KeepNonBlankEmpty(lines[1..]);
    }
  }

  /** Requirement lines are kept as they are. */
  lemma {:induction false} KeepNonBlankOfRequirements(reqs: seq<string>)
    requires forall i :: 0 <= i < |reqs| ==> IsRequirement(reqs[i])
    ensures KeepNonBlank(reqs) == reqs
  {
    if |reqs| > 0 {
      var first, rest := reqs[0], reqs[1..];
      KeepNonBlankCons(reqs);
      assert IsRequirement(first);
      TrimOfTrimmed(first);
      forall i | 0 <= i < |rest|
        ensures IsRequirement(rest[i])
      {
        assert rest[i] == reqs[i + 1];
      }
      KeepNonBlankOfRequirements(rest);
      assert reqs == [first] + rest;
    }
  }

  /** A concatenation is blank exactly when both parts are. */
  lemma BlankConcat(a: string, b: string)
    ensures Blank(a + b) <==> Blank(a) && Blank(b)
  {
    if Blank(a + b) {
      forall i | 0 <= i < |a|
        ensures IsWhitespace(a[i])
      {
        assert (a + b)[i] == a[i];
      }
      forall i | 0 <= i < |b|
        ensures IsWhitespace(b[i])
      {
        assert (a + b)[|a| + i] == b[i];
      }
    }
    if Blank(a) && Blank(b) {
      forall i | 0 <= i < |a + b|
        ensures IsWhitespace((a + b)[i])
      {
        if i < |a| {
          assert (a + b)[i] == a[i];
        } else {
          assert (a + b)[i] == b[i - |a|];
        }
      }
    }
  }

  /** Lines joined by line breaks are blank exactly when every line is. */
  lemma {:induction false} BlankJoin(lines: seq<string>)
    ensures Blank(Join(lines, "\n")) <==> AllBlank(lines)
  {
    if |lines| == 1 {
      assert lines[1..] == [];
    } else if |lines| >= 2 {
      BlankJoin(lines[1..]);
      BlankConcat(lines[0] + "\n", Join(lines[1..], "\n"));
      BlankConcat(lines[0], "\n");
      assert IsWhitespace('\n');
    }
  }

  /** The content yields no requirement exactly when it is entirely
      whitespace (line breaks included). */
  lemma NoRequirementsIffBlank(content: string)
    ensures ExtractRequirements(content) == [] <==> Blank(content)
  {
    var lines := Split(content, '\n');
    KeepNonBlankEmpty(lines);
    JoinSplit(content, '\n');
    BlankJoin(lines);
  }

  /** A single line yields its trimmed self, or nothing when it is blank. */
  lemma RequirementsOfLine(line: string)
    requires '\n' !in line
    ensures ExtractRequirements(line) == if Blank(line) then [] else [Trim(line)]
  {
    SplitNoSeparator(line, '\n');
    KeepNonBlankCons([line]);
    assert [line][1..] == [];
    TrimEmptyIffBlank(line);
  }

  /** The requirements of two texts joined by a line break are the
      requirements of the first followed by those of the second. */
  lemma RequirementsAppend(a: string, b: string)
    ensures ExtractRequirements(a + "\n" + b) == ExtractRequirements(a) + ExtractRequirements(b)
  {
    SplitAppend(a, b, '\n');
    KeepNonBlankAppend(Split(a, '\n'), Split(b, '\n'));
  }

  /** Round trip of the requirements file: joining requirement lines with
      line breaks and extracting again gives back the same list. */
  lemma RequirementsRoundTrip(reqs: seq<string>)
    requires forall i :: 0 <= i < |reqs| ==> IsRequirement(reqs[i])
    ensures ExtractRequirements(Join(reqs, "\n")) == reqs
  {
    if |reqs| == 0 {
      assert Split("", '\n') == [""];
      assert Trim("") == "";
    } else {
      SplitJoin(reqs, '\n');
      KeepNonBlankOfRequirements(reqs);
    }
  }

  /** `${n}. ${req}`: one entry of the numbered list. */
  function NumberedLine(n: nat, req: string): string {
    NatToString(n) + ". " + req
  }

  /** `reqs.map((req, index) => `${index + 1}. ${req}`)`. */
  function NumberLines(reqs: seq<string>): (lines: seq<string>)
    ensures |lines| == |reqs|
  {
    seq(|reqs|, i requires 0 <= i < |reqs| => NumberedLine(i + 1, reqs[i]))
  }

  /** The numbered list, its entries joined by line breaks. */
  function NumberedList(reqs: seq<string>): string {
    Join(NumberLines(reqs), "\n")
  }

  /** The text of a numbered entry with its leading number and `". "` removed. */
  function StripNumber(line: string): string {
    var rest := DropDigits(line);
    if StartsWith(rest, ". ") then rest[2..] else rest
  }

  /** Stripping the number of an entry gives back the requirement. */
  lemma StripNumberedLine(n: nat, req: string)
    ensures StripNumber(NumberedLine(n, req)) == req
  {
    var digits := NatToString(n);
    var rest := ". " + req;
    assert NumberedLine(n, req) == digits + rest;
    DropDigitsOfNumber(digits, rest);
    assert StartsWith(rest, ". ") && rest[2..] == req;
  }

  /** Entries of a numbered list of requirements are single lines. */
  lemma NumberedLinesAreSingleLines(reqs: seq<string>)
    requires forall i :: 0 <= i < |reqs| ==> IsRequirement(reqs[i])
    ensures forall i :: 0 <= i < |reqs| ==> '\n' !in NumberLines(reqs)[i]
  {
    forall i | 0 <= i < |reqs|
      ensures '\n' !in NumberLines(reqs)[i]
    {
      var d := NatToString(i + 1);
      var line := NumberLines(reqs)[i];
      assert line == d + ". " + reqs[i];
      forall k | 0 <= k < |line|
        ensures line[k] != '\n'
      {
        if k < |d| {
          assert line[k] == d[k];
        } else if k >= |d| + 2 {
          assert line[k] == reqs[i][k - |d| - 2];
        }
      }
    }
  }

  /** The lines of a numbered list are its entries: line `i` is
      `"<i+1>. <req_i>"`. */
  lemma NumberedListLines(reqs: seq<string>)
    requires |reqs| >= 1
    requires forall i :: 0 <= i < |reqs| ==> IsRequirement(reqs[i])
    ensures Split(NumberedList(reqs), '\n') == NumberLines(reqs)
    ensures forall i :: 0 <= i < |reqs| ==>
      Split(NumberedList(reqs), '\n')[i] == NatToString(i + 1) + ". " + reqs[i]
  {
    NumberedLinesAreSingleLines(reqs);
    SplitJoin(NumberLines(reqs), '\n');
  }

  /** Reading a numbered list back: its lines with their numbers stripped. */
  function DecodeNumberedList(text: string): (items: seq<string>)
  {
    var lines := Split(text, '\n');
    seq(|lines|, i requires 0 <= i < |lines| => StripNumber(lines[i]))
  }

  /** Round trip of the numbered list: decoding it gives back the
      requirements, in order. */
  lemma NumberedListRoundTrip(reqs: seq<string>)
    requires |reqs| >= 1
    requires forall i :: 0 <= i < |reqs| ==> IsRequirement(reqs[i])
    ensures DecodeNumberedList(NumberedList(reqs)) == reqs
  {
    NumberedListLines(reqs);
    forall i | 0 <= i < |reqs|
      ensures DecodeNumberedList(NumberedList(reqs))[i] == reqs[i]
    {
      StripNumberedLine(i + 1, reqs[i]);
    }
  }

  function SystemPrompt(isExistingProject: bool): string {
    if isExistingProject then SystemPromptExisting else SystemPromptNew
  }

  function UserHeader(isExistingProject: bool): string {
    if isExistingProject then UserHeaderExisting else UserHeaderNew
  }

  function UserFooter(isExistingProject: bool): string {
    if isExistingProject then UserFooterExisting else UserFooterNew
  }

  function ReadmeHeader(isExistingProject: bool): string {
    if isExistingProject then ReadmeHeaderExisting else ReadmeHeaderNew
  }

  /** The user message: a header, a blank line, the numbered list, a blank
      line and a closing request. */
  function UserContent(reqs: seq<string>, isExistingProject: bool): string {
    UserHeader(isExistingProject) + "\n\n" + NumberedList(reqs) + "\n\n" + UserFooter(isExistingProject)
  }

  /** The generated README: a title, a blank line and the numbered list. */
  function ReadmeContent(reqs: seq<string>, isExistingProject: bool): string {
    ReadmeHeader(isExistingProject) + "\n\n" + NumberedList(reqs)
  }

  /** `${WORK_DIR}/requirements.txt`; the work directory is a parameter. */
  function RequirementsPath(workDir: string): string {
    workDir + "/requirements.txt"
  }

  /** `${WORK_DIR}/README.md`. */
  function ReadmePath(workDir: string): string {
    workDir + "/README.md"
  }

  /** The two file keys never coincide, whatever the work directory. */
  lemma PathsDistinct(workDir: string)
    ensures RequirementsPath(workDir) != ReadmePath(workDir)
  {
    assert RequirementsPath(workDir)[|workDir|..] == "/requirements.txt";
    assert ReadmePath(workDir)[|workDir|..] == "/README.md";
  }

  /** The seed for a non-empty list of requirements. */
  function BuildSeed(reqs: seq<string>, isExistingProject: bool, workDir: string): ProcessorResult {
    ProcessorResult(
      [Message("system", "system", SystemPrompt(isExistingProject)),
       Message("user", "user", UserContent(reqs, isExistingProject))],
      true,
      isExistingProject,
      map[RequirementsPath(workDir) := Join(reqs, "\n"),
          ReadmePath(workDir) := ReadmeContent(reqs, isExistingProject)])
  }

  /** The body of the `try`: fails with its own message when there is no
      requirement. */
  function ProcessRequirements(content: string, isExistingProject: bool, workDir: string): (r: Result<ProcessorResult, string>)
    ensures r.Failure? ==> r.error == NoRequirementsError
  {
    var reqs := ExtractRequirements(content);
    if |reqs| == 0 then Failure(NoRequirementsError)
    else Success(BuildSeed(reqs, isExistingProject, workDir))
  }

  /** `FileProcessor.processContent`: any failure inside is rewrapped by the
      outer `catch`, so the caller only ever sees `ProcessingFailed`. */
  function ProcessContent(content: string, isExistingProject: bool, workDir: string): (r: Result<ProcessorResult, string>)
    ensures r.Failure? <==> Blank(content)
    ensures r.Failure? ==> r.error == ProcessingFailed
    ensures r.Success? ==>
      && |r.value.messages| == 2
      && r.value.messages[0].id == "system" && r.value.messages[0].role == "system"
      && r.value.messages[1].id == "user" && r.value.messages[1].role == "user"
      && r.value.contextOptimization
      && r.value.isExistingProject == isExistingProject
      && r.value.files.Keys == {RequirementsPath(workDir), ReadmePath(workDir)}
      && |r.value.files| == 2
  {
    NoRequirementsIffBlank(content);
    PathsDistinct(workDir);
    match ProcessRequirements(content, isExistingProject, workDir)
    case Failure(_) => Failure(ProcessingFailed)
    case Success(v) => Success(v)
  }

  /** A text that is not blank is processed into the seed of its
      requirements. */
  lemma SeedOfText(content: string, isExistingProject: bool, workDir: string)
    requires !Blank(content)
    ensures ProcessContent(content, isExistingProject, workDir)
      == Success(BuildSeed(ExtractRequirements(content), isExistingProject, workDir))
  {
    NoRequirementsIffBlank(content);
  }

  /** The requirements file holds exactly the extracted requirements:
      processing its text again yields the same list, and the same seed. */
  lemma RequirementsFileRoundTrip(content: string, isExistingProject: bool, workDir: string)
    requires !Blank(content)
    ensures var files := ProcessContent(content, isExistingProject, workDir).value.files;
      && ExtractRequirements(files[RequirementsPath(workDir)]) == ExtractRequirements(content)
      && ProcessContent(files[RequirementsPath(workDir)], isExistingProject, workDir)
         == ProcessContent(content, isExistingProject, workDir)
  {
    var reqs := ExtractRequirements(content);
    RequirementsRoundTrip(reqs);
  }

  /** Lines of `a + "\n\n" + b` when `a` is a single line. */
  lemma SplitAfterHeader(header: string, rest: string)
    requires '\n' !in header
    ensures Split(header + "\n\n" + rest, '\n') == [header, ""] + Split(rest, '\n')
  {
    assert header + "\n\n" + rest == header + ['\n'] + ("" + ['\n'] + rest);
    SplitAppend(header, "" + ['\n'] + rest, '\n');
    SplitAppend("", rest, '\n');
    SplitNoSeparator(header, '\n');
    assert Split("", '\n') == [""];
  }

  /** Lines of `h + "\n\n" + body + "\n\n" + f` for a single line `h`. */
  lemma SplitFramed(h: string, body: string, f: string)
    requires '\n' !in h
    ensures Split(h + "\n\n" + body + "\n\n" + f, '\n') == [h, ""] + Split(body, '\n') + [""] + Split(f, '\n')
  {
    assert h + "\n\n" + body + "\n\n" + f == h + "\n\n" + (body + "\n\n" + f);
    SplitAfterHeader(h, body + "\n\n" + f);
    assert body + "\n\n" + f == body + ['\n'] + ("" + ['\n'] + f);
    SplitAppend(body, "" + ['\n'] + f, '\n');
    SplitAppend("", f, '\n');
    assert Split("", '\n') == [""];
  }

  /** The headers are single lines. */
  lemma SingleLineHeaders(isExistingProject: bool)
    ensures '\n' !in UserHeader(isExistingProject)
    ensures '\n' !in ReadmeHeader(isExistingProject)
  {
    if isExistingProject {
      assert '\n' !in UserHeaderExisting;
      assert '\n' !in ReadmeHeaderExisting;
    } else {
      assert '\n' !in UserHeaderNew;
      assert '\n' !in ReadmeHeaderNew;
    }
  }

  /** The README lists requirement `i` on line `i + 2` as `"<i+1>. <req_i>"`,
      below the title and a blank line, and decoding its list gives the
      requirements back. */
  lemma ReadmeListsRequirements(content: string, isExistingProject: bool, workDir: string)
    requires !Blank(content)
    ensures var readme := ProcessContent(content, isExistingProject, workDir).value.files[ReadmePath(workDir)];
      var reqs := ExtractRequirements(content);
      && Split(readme, '\n') == [ReadmeHeader(isExistingProject), ""] + NumberLines(reqs)
      && DecodeNumberedList(readme[|ReadmeHeader(isExistingProject)| + 2..]) == reqs
  {
    var reqs := ExtractRequirements(content);
    SeedOfText(content, isExistingProject, workDir);
    PathsDistinct(workDir);
    var h := ReadmeHeader(isExistingProject);
    SingleLineHeaders(isExistingProject);
    NumberedListLines(reqs);
    SplitAfterHeader(h, NumberedList(reqs));
    var readme := ReadmeContent(reqs, isExistingProject);
    assert readme[|h| + 2..] == NumberedList(reqs);
    NumberedListRoundTrip(reqs);
  }

  /** The user message lists requirement `i` on line `i + 2` as
      `"<i+1>. <req_i>"`, between the header block and the closing request. */
  lemma UserMessageListsRequirements(content: string, isExistingProject: bool, workDir: string)
    requires !Blank(content)
    ensures var user := ProcessContent(content, isExistingProject, workDir).value.messages[1].content;
      var reqs := ExtractRequirements(content);
      Split(user, '\n') == [UserHeader(isExistingProject), ""] + NumberLines(reqs)
        + [""] + Split(UserFooter(isExistingProject), '\n')
  {
    var reqs := ExtractRequirements(content);
    SeedOfText(content, isExistingProject, workDir);
    SingleLineHeaders(isExistingProject);
    NumberedListLines(reqs);
    SplitFramed(UserHeader(isExistingProject), NumberedList(reqs), UserFooter(isExistingProject));
  }

  /** The prompt texts are chosen by the project flag alone: two successful
      seeds agree on the system prompt exactly when their flags agree. */
  lemma FlagSelectsPrompts(c1: string, c2: string, e1: bool, e2: bool, workDir: string)
    requires !Blank(c1) && !Blank(c2)
    ensures var s1 := ProcessContent(c1, e1, workDir).value;
      var s2 := ProcessContent(c2, e2, workDir).value;
      (s1.messages[0] == s2.messages[0]) <==> (e1 == e2)
  {
    assert |SystemPromptExisting| != |SystemPromptNew|;
  }
}

=== FILE: file_upload.dfy ===
/** `handleFileUpload` of `file-upload.tsx`: the checks a chosen file must
    pass, and the effects the handler produces, as an ordered trace of
    events (notices, loading flag, progress, and the hand-off to the send
    callback). Reading the file is given as the file's `text` result. */
module FileUpload {
  import opened Wrappers
  import opened Json

  /** A chosen file: its MIME type, its size in bytes, and what reading its
      text yields. */
  datatype File = File(name: string, mimeType: string, size: nat, text: Result<string, Thrown>)

  /** One effect of the handler. `Send(content)` is the call of the send
      callback with an event object that has no own keys, the file's text,
      and no project id. */
  datatype Event =
    | Notice(text: string)
    | SetLoading(on: bool)
    | SetProgress(percent: nat)
    | Send(content: string)

  const TextPlain := "text/plain"
  const MaxSize: nat := 1024 * 1024
  const NotTextNotice := "Please upload a text file (.txt)"
  const TooLargeNotice := "Please upload a file smaller than 1MB"
  const ProcessedNotice := "Your requirements have been processed"
  const NoHandlerNotice := "Could not process file. Please try again."
  const ReadFailedNotice := "Something went wrong"

  /** The file passes both checks: exactly `text/plain`, and at most 1 MiB. */
  predicate Acceptable(f: File) {
    f.mimeType == TextPlain && f.size <= MaxSize
  }

  /** The effects once the text is read: the hand-off and its notice, or
      the notice that no callback is there. */
  function Handoff(content: string, hasHandler: bool): seq<Event> {
    if hasHandler then [Send(content), Notice(ProcessedNotice)] else [Notice(NoHandlerNotice)]
  }

  /** The effects once the file is read (or fails to be read). */
  function AfterRead(text: Result<string, Thrown>, hasHandler: bool): (trace: seq<Event>)
    ensures 1 <= |trace| <= 3
  {
    match text
    case Failure(t) => [Notice(MessageOr(t, ReadFailedNotice))]
    case Success(content) => [SetProgress(100)] + Handoff(content, hasHandler)
  }

  const Prologue := [SetLoading(true), SetProgress(50)]
  const Epilogue := [SetLoading(false), SetProgress(0)]

  /** The handler: no file does nothing; a file of another type, then a file
      over the size limit, is refused with a notice; an acceptable file
      turns loading on at 50%, is read and handed on, and loading is turned
      off and progress reset on every path. */
  function HandleFileUpload(file: Option<File>, hasHandler: bool): (trace: seq<Event>)
    ensures file.None? ==> trace == []
    ensures file.Some? && file.value.mimeType != TextPlain ==> trace == [Notice(NotTextNotice)]
    ensures file.Some? && file.value.mimeType == TextPlain && file.value.size > MaxSize ==>
      trace == [Notice(TooLargeNotice)]
    ensures file.Some? && Acceptable(file.value) ==>
      && |trace| >= 5
      && trace[..2] == [SetLoading(true), SetProgress(50)]
      && trace[|trace| - 2..] == [SetLoading(false), SetProgress(0)]
  {
    match file
    case None => []
    case Some(f) =>
      if f.mimeType != TextPlain then [Notice(NotTextNotice)]
      else if f.size > MaxSize then [Notice(TooLargeNotice)]
      else Prologue + AfterRead(f.text, hasHandler) + Epilogue
  }

  /** The loading flag and progress after replaying a trace. */
  function UiState(trace: seq<Event>, loading: bool, progress: nat): (bool, nat) {
    if |trace| == 0 then (loading, progress)
    else match trace[0]
      case SetLoading(on) => UiState(trace[1..], on, progress)
      case SetProgress(p) => UiState(trace[1..], loading, p)
      case _ => UiState(trace[1..], loading, progress)
  }

  lemma {:induction false} UiStateAppend(a: seq<Event>, b: seq<Event>, loading: bool, progress: nat)
    ensures var s := UiState(a, loading, progress);
      UiState(a + b, loading, progress) == UiState(b, s.0, s.1)
  {
    if |a| > 0 {
      assert (a + b)[0] == a[0] && (a + b)[1..] == a[1..] + b;
      match a[0]
      case SetLoading(on) => UiStateAppend(a[1..], b, on, progress);
      case SetProgress(p) => UiStateAppend(a[1..], b, loading, p);
      case _ => UiStateAppend(a[1..], b, loading, progress);
    } else {
      assert a + b == b;
    }
  }

  /** Starting idle, every upload leaves the indicator idle: loading off and
      progress at zero. */
  lemma UploadEndsIdle(file: Option<File>, hasHandler: bool)
    ensures UiState(HandleFileUpload(file, hasHandler), false, 0) == (false, 0)
  {
    if file.Some? && Acceptable(file.value) {
      var body := Prologue + AfterRead(file.value.text, hasHandler);
      UiStateAppend(body, Epilogue, false, 0);
      var s := UiState(body, false, 0);
      assert Epilogue[1..] == [SetProgress(0)];
      assert [SetProgress(0)][1..] == [];
      assert UiState([SetProgress(0)], false, s.1) == (false, 0);
    }
  }

  predicate IsNotice(e: Event) {
    e.Notice?
  }

  predicate IsSend(e: Event) {
    e.Send?
  }

  /** The number of events of a kind in a trace. */
  function Count(trace: seq<Event>, p: Event -> bool): nat {
    if |trace| == 0 then 0
    else (if p(trace[0]) then 1 else 0) + Count(trace[1..], p)
  }

  lemma {:induction false} CountAppend(a: seq<Event>, b: seq<Event>, p: Event -> bool)
    ensures Count(a + b, p) == Count(a, p) + Count(b, p)
  {
    if |a| > 0 {
      assert (a + b)[0] == a[0] && (a + b)[1..] == a[1..] + b;
      CountAppend(a[1..], b, p);
    } else {
      assert a + b == b;
    }
  }

  lemma CountPair(e1: Event, e2: Event, p: Event -> bool)
    ensures Count([e1, e2], p) == (if p(e1) then 1 else 0) + (if p(e2) then 1 else 0)
  {
    assert [e1, e2][1..] == [e2];
    CountOne(e2, p);
  }

  lemma CountOne(e: Event, p: Event -> bool)
    ensures Count([e], p) == if p(e) then 1 else 0
  {
    assert [e][1..] == [];
  }

  /** The counts of an accepted file's trace, part by part. */
  lemma CountAccepted(text: Result<string, Thrown>, hasHandler: bool, p: Event -> bool)
    requires !p(SetLoading(true)) && !p(SetProgress(50)) && !p(SetLoading(false)) && !p(SetProgress(0))
    ensures Count(Prologue + AfterRead(text, hasHandler) + Epilogue, p) == Count(AfterRead(text, hasHandler), p)
  {
    var mid := AfterRead(text, hasHandler);
    CountAppend(Prologue + mid, Epilogue, p);
    CountAppend(Prologue, mid, p);
    CountPair(SetLoading(true), SetProgress(50), p);
    CountPair(SetLoading(false), SetProgress(0), p);
  }

  /** Every chosen file produces exactly one notice, whatever happens. */
  lemma OneNoticePerFile(f: File, hasHandler: bool)
    ensures Count(HandleFileUpload(Some(f), hasHandler), IsNotice) == 1
  {
    if Acceptable(f) {
      CountAccepted(f.text, hasHandler, IsNotice);
      match f.text
      case Failure(t) =>
        CountOne(Notice(MessageOr(t, ReadFailedNotice)), IsNotice);
      case Success(c) =>
        CountAppend([SetProgress(100)], Handoff(c, hasHandler), IsNotice);
        CountOne(SetProgress(100), IsNotice);
        CountPair(Send(c), Notice(ProcessedNotice), IsNotice);
        CountOne(Notice(NoHandlerNotice), IsNotice);
    } else {
      CountOne(HandleFileUpload(Some(f), hasHandler)[0], IsNotice);
    }
  }

  /** The file's text is handed on exactly when the file is acceptable, its
      text is read and there is a callback; it is handed on whole, and at
      most once. */
  lemma SendsExactlyWhen(file: Option<File>, hasHandler: bool)
    ensures var trace := HandleFileUpload(file, hasHandler);
      && (forall c :: Send(c) in trace <==>
            file.Some? && Acceptable(file.value) && file.value.text == Success(c) && hasHandler)
      && Count(trace, IsSend) <= 1
  {
    if file.Some? {
      var f := file.value;
      if Acceptable(f) {
        CountAccepted(f.text, hasHandler, IsSend);
        match f.text
        case Failure(t) =>
          CountOne(Notice(MessageOr(t, ReadFailedNotice)), IsSend);
        case Success(c) =>
          CountAppend([SetProgress(100)], Handoff(c, hasHandler), IsSend);
          CountOne(SetProgress(100), IsSend);
          CountPair(Send(c), Notice(ProcessedNotice), IsSend);
          CountOne(Notice(NoHandlerNotice), IsSend);
      } else {
        CountOne(HandleFileUpload(file, hasHandler)[0], IsSend);
      }
    }
  }

  /** The type check comes first: a file of another type is refused for its
      type whatever its size, and a `text/plain` file of exactly 1 MiB is
      accepted while one byte more is refused. */
  lemma TypeCheckedBeforeSize(f: File, hasHandler: bool)
    ensures f.mimeType != TextPlain ==>
      HandleFileUpload(Some(f), hasHandler) == [Notice(NotTextNotice)]
    ensures f.mimeType == TextPlain ==>
      (Acceptable(f.(size := MaxSize)) && !Acceptable(f.(size := MaxSize + 1)))
  {
  }
}

=== FILE: json.dfy ===
/** JavaScript values as they arrive in parsed JSON bodies and stream frames,
    with the truthiness rule that the source's `||`, `!` and `if (x)` use. */
module Json {

  /** A parsed JSON value, plus `Undefined` for a property that is absent.
      Numbers are modelled as integers (see README, "Left out"). */
  datatype Value =
    | Undefined
    | Null
    | Bool(b: bool)
    | Num(n: int)
    | Str(s: string)
    | Arr(items: seq<Value>)
    | Obj(fields: map<string, Value>)

  /** JavaScript truthiness: `undefined`, `null`, `false`, `0` and `""` are
      falsy; every array and object is truthy. */
  predicate Truthy(v: Value) {
    match v
    case Undefined => false
    case Null => false
    case Bool(b) => b
    case Num(n) => n != 0
    case Str(s) => s != ""
    case Arr(_) => true
    case Obj(_) => true
  }

  /** `o.key` on an object: the field's value, or `undefined` when absent. */
  function Get(o: map<string, Value>, key: string): (v: Value)
    ensures key !in o ==> v == Undefined
    ensures key in o ==> v == o[key]
  {
    if key in o then o[key] else Undefined
  }

  /** `a || b`: the left operand when it is truthy, otherwise the right one. */
  function Or(a: Value, b: Value): (r: Value)
    ensures Truthy(a) ==> r == a
    ensures !Truthy(a) ==> r == b
    ensures Truthy(r) <==> Truthy(a) || Truthy(b)
  {
    if Truthy(a) then a else b
  }

  /** A thrown value: an `Error` with its message, or anything else. */
  datatype Thrown = Error(message: string) | NonError

  /** `error instanceof Error ? error.message : fallback`. */
  function MessageOr(t: Thrown, fallback: string): (text: string)
    ensures t.Error? ==> text == t.message
    ensures t.NonError? ==> text == fallback
  {
    match t
    case Error(m) => m
    case NonError => fallback
  }
}

=== FILE: prompts.dfy ===
/** The fixed texts of the requirements seed: the system prompts, the
    headers and closing requests of the user message, and the README titles,
    one of each for a new project and for an existing one. */
module Prompts {

  const SystemPromptExisting := @"You are a software development assistant. You will help implement the following feature requests for an existing project:

1. Analyze each feature request carefully in the context of the existing codebase
2. Break down complex requests into manageable tasks
3. Consider how the new features integrate with the existing code
4. Provide implementation guidance that maintains project architecture
5. Generate necessary modifications to existing files or new files as needed
6. Ensure backward compatibility with existing functionality
7. Provide clear instructions for testing the new features

The feature requests will be provided in the next message. Please analyze them and provide a structured response that includes:
1. A high-level overview of your implementation approach
2. Technical considerations and potential challenges
3. Required modifications to existing files
4. Any new files that need to be created
5. Testing instructions for the new features

IMPORTANT: Your response should be structured to:
1. First provide a high-level analysis of how the features fit into the existing project
2. Then detail the necessary code changes or additions
3. Finally provide testing instructions

Focus on maintaining the project's existing architecture and coding style."

  const SystemPromptNew := @"You are a software development assistant. You will help implement the following requirements:

1. Analyze each requirement carefully
2. Break down complex requirements into manageable tasks
3. Provide implementation guidance and code examples
4. Consider best practices and potential challenges
5. Suggest improvements or clarifications if needed
6. Generate necessary code files and structure
7. Provide clear instructions for running and testing the code

The requirements will be provided in the next message. Please analyze them and provide a structured response that includes:
1. A high-level overview of the implementation approach
2. Any clarifications or assumptions needed
3. Technical considerations and potential challenges
4. Suggested implementation steps
5. Code structure and organization
6. Required dependencies and setup instructions

IMPORTANT: Your response should be structured to:
1. First provide a high-level analysis and implementation plan
2. Then generate the necessary code files with proper structure
3. Finally provide setup and running instructions

The code should be organized in a way that follows best practices and is easy to maintain."

  const UserHeaderExisting := "Feature requests for the existing project:"
  const UserHeaderNew := "Requirements to implement:"
  const UserFooterExisting := @"Please analyze these feature requests and provide an implementation plan that integrates with the existing codebase. Make sure to maintain the project's architecture and coding style."
  const UserFooterNew := @"Please analyze these requirements and provide a complete implementation plan with code. The code should be organized in a way that follows best practices and is easy to maintain."
  const ReadmeHeaderExisting := "# Feature Requests"
  const ReadmeHeaderNew := "# Project Requirements"
}

=== FILE: requirements_api.dfy ===
/** The single-slot requirements mailbox of `api.requirements.ts`: one global
    `RequirementData | null` slot, the POST action (submit, or mark as
    processed), the GET loader (a read-only status projection), and the two
    exported helpers. The slot is an explicit state value threaded through
    total functions that return the response together with the new slot. */
module RequirementsApi {
  import opened Wrappers
  import opened Text
  import opened Json

  /** A staged submission. `projectId` keeps whatever the body carried. */
  datatype RequirementData = RequirementData(
    content: string,
    timestamp: nat,
    processed: bool,
    projectId: Value)

  /** The module-level `requirements` variable. */
  type Slot = Option<RequirementData>

  /** The raw request body as the two parsers would see it: the parsed JSON
      value, `None` when `request.json()` throws; the form fields, `None`
      when `request.formData()` throws. */
  datatype RawBody = RawBody(json: Option<Value>, form: Option<map<string, string>>)

  datatype Request = Request(httpMethod: string, contentType: string, body: RawBody)

  /** Reply bodies. `Status` is the loader's `RequirementsResponseData`. */
  datatype Payload =
    | Acknowledged(message: string)
    | Rejected(error: string)
    | Invalid(error: string, received: Value)
    | Status(hasRequirements: bool, processed: bool, timestamp: Option<nat>,
             content: Option<string>, projectId: Value)

  datatype Response = Response(status: nat, payload: Payload)

  const MethodNotAllowed := Response(405, Rejected("Method not allowed"))
  const ParseFailed := Response(500, Rejected("Failed to process requirements"))
  const MarkedProcessed := Response(200, Acknowledged("Requirements marked as processed"))
  const NothingToMark := Response(404, Rejected("No requirements to mark as processed"))
  const Received := Response(200, Acknowledged("Requirements received"))
  const InvalidContentError :=
    "Requirements content is required and must be a string (use field name \"content\" or \"requirements\")"

  /** The mailbox invariant: a staged submission always has non-empty content. */
  predicate Valid(slot: Slot) {
    slot.Some? ==> slot.value.content != ""
  }

  /** The form fields as a body object: `formData.get(k)?.toString()` for the
      text fields, and `markAsProcessed` true exactly when the field is the
      string `"true"`. */
  function FormBody(form: map<string, string>): (body: map<string, Value>)
    ensures Truthy(Get(body, "markAsProcessed")) <==>
      "markAsProcessed" in form && form["markAsProcessed"] == "true"
    ensures forall k :: k in ["content", "requirements", "projectId"] ==>
      Get(body, k) == if k in form then Str(form[k]) else Undefined
  {
    var text := (k: string) => if k in form then Str(form[k]) else Undefined;
    map["content" := text("content"), "requirements" := text("requirements"),
        "markAsProcessed" := Bool("markAsProcessed" in form && form["markAsProcessed"] == "true"),
        "projectId" := text("projectId")]
  }

  /** The body as the action sees it: JSON when the content type mentions
      `application/json`, form data otherwise, which is always an object;
      `None` when parsing throws. */
  function ParseBody(req: Request): (body: Option<Value>)
    ensures Contains(req.contentType, "application/json") ==> body == req.body.json
    ensures !Contains(req.contentType, "application/json") ==>
      (body.Some? <==> req.body.form.Some?) &&
      (body.Some? ==> body.value.Obj? && body.value.fields == FormBody(req.body.form.value))
  {
    if Contains(req.contentType, "application/json") then req.body.json
    else
      match req.body.form
      case None => None
      case Some(form) => Some(Obj(FormBody(form)))
  }

  /** Reading a property of the body throws exactly for `null` and
      `undefined`. */
  predicate Nullish(body: Value) {
    body.Null? || body.Undefined?
  }

  /** The properties the handler reads from a body that is not nullish: an
      object's own fields; a string, number, boolean or array has none of
      `content`, `requirements`, `markAsProcessed` and `projectId`. */
  function Props(body: Value): (props: map<string, Value>)
    ensures body.Obj? ==> props == body.fields
    ensures !body.Obj? ==> props == map[]
  {
    if body.Obj? then body.fields else map[]
  }

  /** `body.content || body.requirements`: the submitted content, when it is
      a non-empty string. */
  function SubmittedContent(body: map<string, Value>): (r: Option<string>)
    ensures r.Some? ==> r.value != ""
    ensures Truthy(Get(body, "content")) && Get(body, "content").Str? ==>
      r == Some(Get(body, "content").s)
    ensures !Truthy(Get(body, "content")) ==>
      (r.Some? <==> Get(body, "requirements").Str? && Get(body, "requirements").s != "")
    ensures r.Some? && !Truthy(Get(body, "content")) ==> r.value == Get(body, "requirements").s
    ensures Truthy(Get(body, "content")) && !Get(body, "content").Str? ==> r.None?
  {
    var chosen := Or(Get(body, "content"), Get(body, "requirements"));
    if Truthy(chosen) && chosen.Str? then Some(chosen.s) else None
  }

  /** The handler once the body is parsed. A nullish body throws at its
      first property read and gets the 500 reply. Otherwise mark-as-processed
      wins over any content in the same body; a valid submission replaces
      the slot; anything else is rejected with 400, echoing the body as
      parsed. */
  function HandleBody(slot: Slot, body: Value, now: nat): (res: (Response, Slot))
    ensures Nullish(body) ==> res == (ParseFailed, slot)
    ensures !Nullish(body) && Truthy(Get(Props(body), "markAsProcessed")) && slot.Some? ==>
      res == (MarkedProcessed, Some(slot.value.(processed := true)))
    ensures !Nullish(body) && Truthy(Get(Props(body), "markAsProcessed")) && slot.None? ==>
      res == (NothingToMark, None)
    ensures !Nullish(body) && !Truthy(Get(Props(body), "markAsProcessed")) ==>
      match SubmittedContent(Props(body))
      case None => res == (Response(400, Invalid(InvalidContentError, body)), slot)
      case Some(c) => res == (Received, Some(RequirementData(c, now, false, Get(Props(body), "projectId"))))
  {
    if Nullish(body) then (ParseFailed, slot)
    else
      var props := Props(body);
      if Truthy(Get(props, "markAsProcessed")) then
        if slot.Some? then (MarkedProcessed, Some(slot.value.(processed := true)))
        else (NothingToMark, slot)
      else
        match SubmittedContent(props)
        case None => (Response(400, Invalid(InvalidContentError, body)), slot)
        case Some(c) => (Received, Some(RequirementData(c, now, false, Get(props, "projectId"))))
  }

  /** The request is a POST whose parsed body submits content without
      asking to mark as processed: the only kind that replaces the slot. */
  predicate IsSubmission(req: Request) {
    && req.httpMethod == "POST"
    && ParseBody(req).Some?
    && !Nullish(ParseBody(req).value)
    && !Truthy(Get(Props(ParseBody(req).value), "markAsProcessed"))
    && SubmittedContent(Props(ParseBody(req).value)).Some?
  }

  /** `t` is `s`, or `s` with its entry flagged processed. */
  predicate SameOrMarked(s: Slot, t: Slot) {
    t == s || t == MarkRequirementsAsProcessed(s)
  }

  /** The POST `action`; `now` stands for `Date.now()`. A submission replaces
      the slot whatever it held; every other request leaves the slot alone
      or only flags its entry processed. */
  function Action(slot: Slot, req: Request, now: nat): (res: (Response, Slot))
    ensures req.httpMethod != "POST" ==> res == (MethodNotAllowed, slot)
    ensures res.0.status != 200 ==> res.1 == slot
    ensures IsSubmission(req) ==>
      && res.0 == Received
      && res.1 == Some(RequirementData(SubmittedContent(Props(ParseBody(req).value)).value, now, false,
                                       Get(Props(ParseBody(req).value), "projectId")))
    ensures !IsSubmission(req) ==> SameOrMarked(slot, res.1)
    ensures Valid(slot) ==> Valid(res.1)
    ensures res.0.status in {200, 400, 404, 405, 500}
  {
    if req.httpMethod != "POST" then (MethodNotAllowed, slot)
    else
      match ParseBody(req)
      case None => (ParseFailed, slot)
      case Some(body) => HandleBody(slot, body, now)
  }

  /** `x || null` for the numeric timestamp: `0` reads as null. */
  function TimestampOrNull(t: nat): Option<nat> {
    if t != 0 then Some(t) else None
  }

  /** The GET `loader`: a projection of the slot that cannot change it. */
  function Loader(slot: Slot, httpMethod: string): (r: Response)
    ensures httpMethod != "GET" ==> r == MethodNotAllowed
    ensures httpMethod == "GET" ==> r.status == 200 && r.payload.Status?
    ensures httpMethod == "GET" ==> (r.payload.hasRequirements <==> slot.Some?)
    ensures httpMethod == "GET" && slot.None? ==>
      r.payload == Status(false, false, None, None, Null)
    ensures httpMethod == "GET" && slot.Some? && Valid(slot) ==>
      && r.payload.processed == slot.value.processed
      && r.payload.content == Some(slot.value.content)
    ensures httpMethod == "GET" && slot.Some? ==>
      && (r.payload.timestamp.Some? <==> slot.value.timestamp != 0)
      && (r.payload.timestamp.Some? ==> r.payload.timestamp.value == slot.value.timestamp)
      && (Truthy(slot.value.projectId) ==> r.payload.projectId == slot.value.projectId)
      && (!Truthy(slot.value.projectId) ==> r.payload.projectId == Null)
  {
    if httpMethod != "GET" then MethodNotAllowed
    else
      match slot
      case None => Response(200, Status(false, false, None, None, Null))
      case Some(d) =>
        Response(200, Status(true, d.processed, TimestampOrNull(d.timestamp),
          if d.content != "" then Some(d.content) else None,
          Or(d.projectId, Null)))
  }

  /** `markRequirementsAsProcessed`: flags a staged entry, leaves an empty
      slot empty. */
  function MarkRequirementsAsProcessed(slot: Slot): (r: Slot)
    ensures slot.None? <==> r.None?
    ensures slot.Some? ==> r.value.processed
    ensures slot.Some? ==> r.value.(processed := slot.value.processed) == slot.value
  {
    match slot
    case None => None
    case Some(d) => Some(d.(processed := true))
  }

  /** What `getAndConsumeRequirements` hands out. */
  datatype Delivery = Delivery(content: string, projectId: Value)

  /** `getAndConsumeRequirements`: hands out an unprocessed entry once and
      marks it processed; otherwise returns null and changes nothing. */
  function GetAndConsumeRequirements(slot: Slot): (res: (Option<Delivery>, Slot))
    ensures res.0.Some? <==> slot.Some? && !slot.value.processed
    ensures res.0.Some? ==>
      && res.0.value == Delivery(slot.value.content, slot.value.projectId)
      && res.1 == Some(slot.value.(processed := true))
    ensures res.0.None? ==> res.1 == slot
    ensures res.1.Some? ==> res.1.value.processed
  {
    match slot
    case Some(d) =>
      if !d.processed then (Some(Delivery(d.content, d.projectId)), Some(d.(processed := true)))
      else (None, slot)
    case None => (None, slot)
  }

  /** One operation on the mailbox: an HTTP request to either route, or a
      call of one of the two exported helpers. */
  datatype Op =
    | Post(req: Request, now: nat)
    | Query(httpMethod: string)
    | Mark
    | Consume

  datatype Outcome =
    | Replied(response: Response)
    | Flagged
    | Handed(delivery: Option<Delivery>)

  /** One operation applied to the slot. */
  function Step(slot: Slot, op: Op): (res: (Outcome, Slot))
  {
    match op
    case Post(req, now) => var (r, s) := Action(slot, req, now); (Replied(r), s)
    case Query(m) => (Replied(Loader(slot, m)), slot)
    case Mark => (Flagged, MarkRequirementsAsProcessed(slot))
    case Consume => var (d, s) := GetAndConsumeRequirements(slot); (Handed(d), s)
  }

  /** A sequence of operations applied in order, with every outcome. */
  function Run(slot: Slot, ops: seq<Op>): (res: (seq<Outcome>, Slot))
    ensures |res.0| == |ops|
    decreases |ops|
  {
    if |ops| == 0 then ([], slot)
    else
      var (o, s) := Step(slot, ops[0]);
      var (os, s') := Run(s, ops[1..]);
      ([o] + os, s')
  }

  /** Whether the operation is a submission. */
  predicate Submits(op: Op) {
    op.Post? && IsSubmission(op.req)
  }

  /** How many outcomes handed a submission out. */
  function Deliveries(outs: seq<Outcome>): nat {
    if |outs| == 0 then 0
    else (if outs[0].Handed? && outs[0].delivery.Some? then 1 else 0) + Deliveries(outs[1..])
  }

  /** Whether the slot holds an entry that has not been handed out. */
  predicate Pending(slot: Slot) {
    slot.Some? && !slot.value.processed
  }

  /** Every operation keeps the mailbox invariant. */
  lemma {:induction false} RunKeepsValid(slot: Slot, ops: seq<Op>)
    requires Valid(slot)
    ensures Valid(Run(slot, ops).1)
    decreases |ops|
  {
    if |ops| > 0 {
      RunKeepsValid(Step(slot, ops[0]).1, ops[1..]);
    }
  }

  /** A step that is not a submission can only flag the entry processed. */
  lemma StepWithoutSubmission(slot: Slot, op: Op)
    requires !Submits(op)
    ensures SameOrMarked(slot, Step(slot, op).1)
    ensures Step(slot, op).0.Handed? && Step(slot, op).0.delivery.Some? ==> Pending(slot)
  {
  }

  /** At-most-once delivery: between two submissions an entry is handed out
      at most once, and not at all once it is processed, however the status
      route, the mark-as-processed request and the two helpers interleave. */
  lemma {:induction false} AtMostOnceDelivery(slot: Slot, ops: seq<Op>)
    requires forall i :: 0 <= i < |ops| ==> !Submits(ops[i])
    ensures Deliveries(Run(slot, ops).0) <= if Pending(slot) then 1 else 0
    decreases |ops|
  {
    if |ops| > 0 {
      var (o, s) := Step(slot, ops[0]);
      StepWithoutSubmission(slot, ops[0]);
      assert forall i :: 0 <= i < |ops[1..]| ==> !Submits(ops[1..][i]) by {
        forall i | 0 <= i < |ops[1..]| ensures !Submits(ops[1..][i]) {
          assert ops[1..][i] == ops[i + 1];
        }
      }
      AtMostOnceDelivery(s, ops[1..]);
      var rest := Run(s, ops[1..]).0;
      assert Run(slot, ops).0 == [o] + rest;
      assert ([o] + rest)[1..] == rest;
      if o.Handed? && o.delivery.Some? {
        assert !Pending(s);
      }
    }
  }

  /** Consume-once: two consecutive `getAndConsumeRequirements` calls give a
      value and then null. */
  lemma ConsumeTwice(slot: Slot)
    requires Pending(slot)
    ensures var (first, s) := GetAndConsumeRequirements(slot);
      first == Some(Delivery(slot.value.content, slot.value.projectId))
      && GetAndConsumeRequirements(s) == (None, s)
  {
  }

  /** Last write wins: after a submission the slot is the same whatever it
      held before, processed or not. */
  lemma LastWriteWins(s1: Slot, s2: Slot, req: Request, now: nat)
    requires IsSubmission(req)
    ensures Action(s1, req, now) == Action(s2, req, now)
  {
  }

  /** Submit, then read the status: the status shows exactly the submitted
      content, unprocessed, with the body's project id (`null` when it is
      falsy) and the submission's stamp (`null` for a stamp of 0). */
  lemma SubmitThenStatus(slot: Slot, req: Request, now: nat)
    requires IsSubmission(req)
    ensures var st := Loader(Action(slot, req, now).1, "GET").payload;
      && st.hasRequirements && !st.processed
      && st.content == SubmittedContent(Props(ParseBody(req).value))
      && st.projectId == Or(Get(Props(ParseBody(req).value), "projectId"), Null)
      && (now > 0 ==> st.timestamp == Some(now))
      && (now == 0 ==> st.timestamp.None?)
  {
  }

  /** A parsed body that is not an object, such as the JSON string `"abc"`
      or the array `[1]`, carries neither content nor a mark request: it is
      rejected with 400, the reply echoes it as parsed, and the slot is
      kept. */
  lemma NonObjectBodyRejected(slot: Slot, req: Request, now: nat)
    requires req.httpMethod == "POST" && ParseBody(req).Some?
    requires !Nullish(ParseBody(req).value) && !ParseBody(req).value.Obj?
    ensures Action(slot, req, now) == (Response(400, Invalid(InvalidContentError, ParseBody(req).value)), slot)
  {
  }

  /** Marking is idempotent: with an entry present every mark request
      succeeds and leaves it processed; with the slot empty it answers 404
      and the slot stays empty. */
  lemma MarkTwice(slot: Slot, req: Request, now: nat)
    requires req.httpMethod == "POST" && ParseBody(req).Some? && !Nullish(ParseBody(req).value)
    requires Truthy(Get(Props(ParseBody(req).value), "markAsProcessed"))
    ensures var (r1, s1) := Action(slot, req, now);
      var (r2, s2) := Action(s1, req, now);
      && (slot.Some? ==> r1 == MarkedProcessed && r2 == MarkedProcessed && s2 == s1 && s1.value.processed)
      && (slot.None? ==> r1 == NothingToMark && r2 == NothingToMark && s2 == None)
  {
  }
}

=== FILE: stream_reframe.dfy ===
/** The re-framing loop of the file-input route: the chat engine's reply
    arrives as decoded text chunks of `data: <json>` lines (a simplified form
    of the Server-Sent Events format, section 9.2 of the HTML Living
    Standard); three frame kinds are forwarded, everything else is dropped,
    and two synthetic progress frames bracket the output. `JSON.parse` is a
    parameter. */
module StreamReframe {
  import opened Wrappers
  import opened Text
  import opened Json

  /** What `JSON.parse` does with a payload: throws, or yields a value. */
  datatype Parsed = Malformed | Parsed(value: Value)

  /** A frame written to the outward data stream, with only its listed fields. */
  datatype Frame =
    | MessageFrame(role: Value, content: Value)
    | ProgressFrame(stage: Value, status: Value, message: Value)
    | CodeContextFrame(files: Value)

  const DataPrefix := "data: "

  /** The first frame: file processing is complete. */
  function Opening(isExistingProject: bool): Frame {
    ProgressFrame(Str("file-processing"), Str("complete"),
      Str(if isExistingProject then "Feature requests processed successfully"
          else "File processed successfully"))
  }

  /** The last frame: the preview is complete. */
  function Closing(isExistingProject: bool): Frame {
    ProgressFrame(Str("preview"), Str("complete"),
      Str(if isExistingProject then "Feature implementation and deployment complete"
          else "Code generation and deployment complete"))
  }

  /** The frame forwarded for one parsed payload: by its `type` field, a
      message, progress or code-context frame with only the listed fields.
      Any other value yields nothing: an object of another type, and a
      non-object (whose `type` is undefined, or, for `null`, whose property
      access throws and is caught like a parse error). */
  function Forward(v: Value): Option<Frame> {
    match v
    case Obj(o) =>
      var t := Get(o, "type");
      if t == Str("message") then Some(MessageFrame(Get(o, "role"), Get(o, "content")))
      else if t == Str("progress") then Some(ProgressFrame(Get(o, "label"), Get(o, "status"), Get(o, "message")))
      else if t == Str("codeContext") then Some(CodeContextFrame(Get(o, "files")))
      else None
    case _ => None
  }

  /** Exactly the objects typed `message`, `progress` and `codeContext` are
      forwarded, each as the frame of its kind carrying the object's own
      fields. */
  lemma ForwardKinds(v: Value)
    ensures Forward(v).Some? <==>
      v.Obj? && (Get(v.fields, "type") == Str("message") || Get(v.fields, "type") == Str("progress")
                 || Get(v.fields, "type") == Str("codeContext"))
    ensures v.Obj? && Get(v.fields, "type") == Str("message") ==>
      Forward(v) == Some(MessageFrame(Get(v.fields, "role"), Get(v.fields, "content")))
    ensures v.Obj? && Get(v.fields, "type") == Str("progress") ==>
      Forward(v) == Some(ProgressFrame(Get(v.fields, "label"), Get(v.fields, "status"), Get(v.fields, "message")))
    ensures v.Obj? && Get(v.fields, "type") == Str("codeContext") ==>
      Forward(v) == Some(CodeContextFrame(Get(v.fields, "files")))
  {
  }

  /** The frame, if any, for one line: only a line starting with `"data: "`
      counts, its payload is the line without those six characters, and a
      malformed payload is skipped. */
  function FrameOfLine(line: string, parse: string -> Parsed): Option<Frame> {
    if StartsWith(line, DataPrefix) then
      match parse(line[6..])
      case Malformed => None
      case Parsed(v) => Forward(v)
    else
      None
  }

  /** A line yields a frame only when it carries the `data: ` prefix and its
      payload parses; then the frame is the one forwarded for that value. */
  lemma FrameOfLineNeedsData(line: string, parse: string -> Parsed)
    ensures !StartsWith(line, DataPrefix) ==> FrameOfLine(line, parse).None?
    ensures StartsWith(line, DataPrefix) && parse(line[6..]).Malformed? ==> FrameOfLine(line, parse).None?
    ensures StartsWith(line, DataPrefix) && parse(line[6..]).Parsed? ==>
      FrameOfLine(line, parse) == Forward(parse(line[6..]).value)
  {
  }

  function OptionToSeq(f: Option<Frame>): seq<Frame> {
    if f.Some? then [f.value] else []
  }

  /** How the loop treats one line; the source's treatment is `LineFrame`,
      and the list-level definitions below hold for any treatment. */
  type LineHandler = string -> Option<Frame>

  /** The source's per-line treatment, with `parse` standing for `JSON.parse`. */
  function LineFrame(parse: string -> Parsed): LineHandler {
    line => FrameOfLine(line, parse)
  }

  /** The frames of a list of lines, in line order. */
  function FramesOfLines(lines: seq<string>, handle: LineHandler): (out: seq<Frame>)
    ensures |out| <= |lines|
  {
    if |lines| == 0 then []
    else OptionToSeq(handle(lines[0])) + FramesOfLines(lines[1..], handle)
  }

  /** The frames of one chunk: its own lines, split on `'\n'` with nothing
      carried over from the previous chunk. */
  function FramesOfChunk(chunk: string, handle: LineHandler): seq<Frame> {
    FramesOfLines(Split(chunk, '\n'), handle)
  }

  /** The frames of all chunks, chunk after chunk. */
  function FramesOfChunks(chunks: seq<string>, handle: LineHandler): seq<Frame> {
    if |chunks| == 0 then []
    else FramesOfChunk(chunks[0], handle) + FramesOfChunks(chunks[1..], handle)
  }

  /** The whole outward stream as written: the opening frame, the forwarded
      frames, the closing frame. */
  function Reframe(chunks: seq<string>, parse: string -> Parsed, isExistingProject: bool): (out: seq<Frame>)
    ensures |out| == 2 + |FramesOfChunks(chunks, LineFrame(parse))|
    ensures out[0] == Opening(isExistingProject)
    ensures out[|out| - 1] == Closing(isExistingProject)
    ensures out[1..|out| - 1] == FramesOfChunks(chunks, LineFrame(parse))
  {
    [Opening(isExistingProject)] + FramesOfChunks(chunks, LineFrame(parse)) + [Closing(isExistingProject)]
  }

  lemma FramesOfSingleLine(line: string, handle: LineHandler)
    ensures FramesOfLines([line], handle) == OptionToSeq(handle(line))
  {
    assert [line][1..] == [];
  }

  /** Frames of consecutive line lists follow each other: earlier lines'
      frames come first. */
  lemma {:induction false} FramesOfLinesAppend(a: seq<string>, b: seq<string>, handle: LineHandler)
    ensures FramesOfLines(a + b, handle) == FramesOfLines(a, handle) + FramesOfLines(b, handle)
    decreases |a|
  {
    if |a| == 0 {
      assert a + b == b;
    } else {
      assert (a + b)[0] == a[0];
      assert (a + b)[1..] == a[1..] + b;
      FramesOfLinesAppend(a[1..], b, handle);
    }
  }

  /** Same, for consecutive chunk lists. */
  lemma {:induction false} FramesOfChunksAppend(a: seq<string>, b: seq<string>, handle: LineHandler)
    ensures FramesOfChunks(a + b, handle) == FramesOfChunks(a, handle) + FramesOfChunks(b, handle)
    decreases |a|
  {
    if |a| == 0 {
      assert a + b == b;
    } else {
      assert (a + b)[0] == a[0];
      assert (a + b)[1..] == a[1..] + b;
      FramesOfChunksAppend(a[1..], b, handle);
    }
  }

  /** A malformed `data:` line is skipped and the lines after it are still
      processed. */
  lemma MalformedLineSkipped(before: seq<string>, bad: string, after: seq<string>, parse: string -> Parsed)
    requires StartsWith(bad, DataPrefix) && parse(bad[6..]).Malformed?
    ensures FramesOfLines(before + [bad] + after, LineFrame(parse))
      == FramesOfLines(before, LineFrame(parse)) + FramesOfLines(after, LineFrame(parse))
  {
    var handle := LineFrame(parse);
    assert handle(bad).None? by {
      FrameOfLineNeedsData(bad, parse);
    }
    FramesOfSingleLine(bad, handle);
    FramesOfLinesAppend(before + [bad], after, handle);
    FramesOfLinesAppend(before, [bad], handle);
  }

  /** How many lines carry the `data: ` prefix. */
  function DataLines(lines: seq<string>): nat {
    if |lines| == 0 then 0
    else (if StartsWith(lines[0], DataPrefix) then 1 else 0) + DataLines(lines[1..])
  }

  /** At most one frame per `data:` line; other lines never produce one. */
  lemma {:induction false} AtMostOneFramePerDataLine(lines: seq<string>, parse: string -> Parsed)
    ensures |FramesOfLines(lines, LineFrame(parse))| <= DataLines(lines)
    decreases |lines|
  {
    if |lines| > 0 {
      FrameOfLineNeedsData(lines[0], parse);
      AtMostOneFramePerDataLine(lines[1..], parse);
    }
  }

  /** The lines the loop looks at: each chunk's own pieces, one chunk after
      the other. */
  function ChunkLines(chunks: seq<string>): seq<string> {
    if |chunks| == 0 then []
    else Split(chunks[0], '\n') + ChunkLines(chunks[1..])
  }

  /** The forwarded frames are the frames of the chunk-wise lines, in order. */
  lemma {:induction false} FramesFollowChunkLines(chunks: seq<string>, handle: LineHandler)
    ensures FramesOfChunks(chunks, handle) == FramesOfLines(ChunkLines(chunks), handle)
    decreases |chunks|
  {
    if |chunks| > 0 {
      FramesFollowChunkLines(chunks[1..], handle);
      FramesOfLinesAppend(Split(chunks[0], '\n'), ChunkLines(chunks[1..]), handle);
    }
  }

  /** One more line handled: its frame, if any, comes after the others. */
  lemma FramesOfLinesSnoc(lines: seq<string>, j: nat, handle: LineHandler)
    requires j < |lines|
    ensures FramesOfLines(lines[..j + 1], handle) == FramesOfLines(lines[..j], handle) + OptionToSeq(handle(lines[j]))
  {
    FramesOfSingleLine(lines[j], handle);
    FramesOfLinesAppend(lines[..j], [lines[j]], handle);
    assert lines[..j + 1] == lines[..j] + [lines[j]];
  }

  /** One more chunk handled: its frames come after the others. */
  lemma FramesOfChunksSnoc(chunks: seq<string>, i: nat, handle: LineHandler)
    requires i < |chunks|
    ensures FramesOfChunks(chunks[..i + 1], handle) == FramesOfChunks(chunks[..i], handle) + FramesOfChunk(chunks[i], handle)
  {
    assert FramesOfChunks([chunks[i]], handle) == FramesOfChunk(chunks[i], handle) by {
      assert [chunks[i]][1..] == [];
    }
    FramesOfChunksAppend(chunks[..i], [chunks[i]], handle);
    assert chunks[..i + 1] == chunks[..i] + [chunks[i]];
  }

  /** One line of the loop: a `data:` line whose payload parses to a
      forwardable value appends that frame; any other line appends nothing. */
  method HandleLine(out: seq<Frame>, line: string, parse: string -> Parsed) returns (out': seq<Frame>)
    ensures out' == out + OptionToSeq(LineFrame(parse)(line))
  {
    out' := out;
    if StartsWith(line, DataPrefix) {
      var data := line[6..];
      match parse(data)
      case Malformed =>
      case Parsed(v) =>
        var f := Forward(v);
        if f.Some? {
          out' := out + [f.value];
        }
    }
  }

  /** The inner loop: every line of one chunk, in order. */
  method HandleChunk(out: seq<Frame>, chunk: string, parse: string -> Parsed) returns (out': seq<Frame>)
    ensures out' == out + FramesOfChunk(chunk, LineFrame(parse))
  {
    ghost var handle := LineFrame(parse);
    var lines := Split(chunk, '\n');
    out' := out;
    var j := 0;
    while j < |lines|
      invariant 0 <= j <= |lines|
      invariant out' == out + FramesOfLines(lines[..j], handle)
    {
      var line := lines[j];
      out' := HandleLine(out', line, parse);
      FramesOfLinesSnoc(lines, j, handle);
      j := j + 1;
    }
    assert lines[..j] == lines;
  }

  /** The `execute` loop of the source: the opening frame, then for every
      chunk, split on `'\n'`, each line handled in turn, then the closing
      frame. The forwarded frames are collected in `forwarded`, which is the
      stream between the two progress frames. */
  method Execute(chunks: seq<string>, parse: string -> Parsed, isExistingProject: bool)
    returns (out: seq<Frame>)
    ensures out == Reframe(chunks, parse, isExistingProject)
  {
    ghost var handle := LineFrame(parse);
    var opening := Opening(isExistingProject);
    var forwarded := [];
    var i := 0;
    while i < |chunks|
      invariant 0 <= i <= |chunks|
      invariant forwarded == FramesOfChunks(chunks[..i], handle)
    {
      forwarded := HandleChunk(forwarded, chunks[i], parse);
      FramesOfChunksSnoc(chunks, i, handle);
      i := i + 1;
    }
    assert chunks[..i] == chunks;
    out := [opening] + forwarded + [Closing(isExistingProject)];
  }

  /** The chunks glued back together: the text the engine actually sent. */
  function Concat(chunks: seq<string>): string {
    if |chunks| == 0 then "" else chunks[0] + Concat(chunks[1..])
  }

  /** The payload of a message frame with no role and no content. */
  const MessagePayload := "{\"type\":\"message\"}"

  /** The line `data: {"type":"message"}` cut after `data`: its two pieces. */
  const CutHead := "data"
  const CutTail := ": " + MessagePayload

  /** A parser that knows one payload, `{"type":"message"}`, as `JSON.parse`
      reads it; every other payload is malformed. */
  function ParseOneMessage(payload: string): Parsed {
    if payload == MessagePayload then Parsed(Obj(map["type" := Str("message")])) else Malformed
  }

  lemma FramesOfPlainChunk(chunk: string, handle: LineHandler)
    requires '\n' !in chunk
    ensures FramesOfChunks([chunk], handle) == OptionToSeq(handle(chunk))
  {
    SplitNoSeparator(chunk, '\n');
    FramesOfSingleLine(chunk, handle);
    assert [chunk][1..] == [];
  }

  /** Arriving whole, the line `data: {"type":"message"}` yields its
      message frame. */
  lemma WholeLineForwarded()
    ensures FramesOfChunks([CutHead + CutTail], LineFrame(ParseOneMessage)) == [MessageFrame(Undefined, Undefined)]
  {
    var handle := LineFrame(ParseOneMessage);
    var whole := CutHead + CutTail;
    assert whole == DataPrefix + MessagePayload;
    assert handle(whole) == Some(MessageFrame(Undefined, Undefined)) by {
      assert StartsWith(whole, DataPrefix) && whole[6..] == MessagePayload;
    }
    FramesOfPlainChunk(whole, handle);
  }

  /** A line shorter than the prefix is never a `data:` line. */
  lemma ShortLineDropped(line: string, parse: string -> Parsed)
    requires |line| < |DataPrefix|
    ensures LineFrame(parse)(line) == None
  {
  }

  /** Cut as `"data"`, `": {"type":"message"}"`, neither piece is a `data:`
      line. */
  lemma CutLineDropped()
    ensures FramesOfChunks([CutHead, CutTail], LineFrame(ParseOneMessage)) == []
  {
    var handle := LineFrame(ParseOneMessage);
    ShortLineDropped(CutHead, ParseOneMessage);
    assert handle(CutTail) == None by {
      assert CutTail[0] != DataPrefix[0];
    }
    FramesOfPlainChunk(CutHead, handle);
    FramesOfPlainChunk(CutTail, handle);
    FramesOfChunksAppend([CutHead], [CutTail], handle);
    assert [CutHead] + [CutTail] == [CutHead, CutTail];
  }

  /** The as-written loop loses a line that straddles a chunk boundary: the
      single line `data: {"type":"message"}` yields its message frame when
      it arrives in one chunk, and nothing when it arrives as `"data"`,
      `": {"type":"message"}"`. */
  lemma StraddlingLineLost()
    ensures Concat([CutHead, CutTail]) == Concat([CutHead + CutTail])
    ensures FramesOfChunks([CutHead + CutTail], LineFrame(ParseOneMessage)) == [MessageFrame(Undefined, Undefined)]
    ensures FramesOfChunks([CutHead, CutTail], LineFrame(ParseOneMessage)) == []
  {
    WholeLineForwarded();
    CutLineDropped();
    assert Concat([CutHead + CutTail]) == CutHead + CutTail;
    assert Concat([CutTail]) == CutTail;
  }

  /** The corrected loop: a buffer carries the unterminated tail of each
      chunk into the next, only complete lines are handled, and the tail
      left at the end of the stream is handled last. */
  function FramesBuffered(buffer: string, chunks: seq<string>, handle: LineHandler): seq<Frame>
    decreases |chunks|
  {
    if |chunks| == 0 then
      OptionToSeq(handle(buffer))
    else
      var pieces := Split(buffer + chunks[0], '\n');
      FramesOfLines(pieces[..|pieces| - 1], handle)
        + FramesBuffered(pieces[|pieces| - 1], chunks[1..], handle)
  }

  /** The text after the buffer and the first chunk splits into the complete
      lines of `buffer + chunks[0]` followed by the lines of its tail glued to
      the rest of the text. */
  lemma SplitAfterFirstChunk(buffer: string, chunks: seq<string>)
    requires |chunks| > 0
    ensures var pieces := Split(buffer + chunks[0], '\n');
      Split(buffer + Concat(chunks), '\n')
        == pieces[..|pieces| - 1] + Split(pieces[|pieces| - 1] + Concat(chunks[1..]), '\n')
  {
    assert buffer + Concat(chunks) == (buffer + chunks[0]) + Concat(chunks[1..]);
    SplitConcat(buffer + chunks[0], Concat(chunks[1..]), '\n');
  }

  /** One step of `BufferedFollowsText`: if the buffered loop follows the
      text from the new tail on, it follows it from `buffer` on. */
  lemma BufferedStep(buffer: string, chunks: seq<string>, handle: LineHandler)
    requires |chunks| > 0
    requires var pieces := Split(buffer + chunks[0], '\n'); var tail := pieces[|pieces| - 1];
      FramesBuffered(tail, chunks[1..], handle) == FramesOfLines(Split(tail + Concat(chunks[1..]), '\n'), handle)
    ensures FramesBuffered(buffer, chunks, handle) == FramesOfLines(Split(buffer + Concat(chunks), '\n'), handle)
  {
    var pieces := Split(buffer + chunks[0], '\n');
    var done := pieces[..|pieces| - 1];
    var later := Split(pieces[|pieces| - 1] + Concat(chunks[1..]), '\n');
    SplitAfterFirstChunk(buffer, chunks);
    FramesOfLinesAppend(done, later, handle);
  }

  /** With a carry buffer, the frames are those of the lines of the whole
      text, however it was cut into chunks. */
  lemma {:induction false} BufferedFollowsText(buffer: string, chunks: seq<string>, handle: LineHandler)
    requires '\n' !in buffer
    ensures FramesBuffered(buffer, chunks, handle) == FramesOfLines(Split(buffer + Concat(chunks), '\n'), handle)
    decreases |chunks|
  {
    if |chunks| == 0 {
      assert buffer + Concat(chunks) == buffer;
      SplitNoSeparator(buffer, '\n');
      FramesOfSingleLine(buffer, handle);
    } else {
      var pieces := Split(buffer + chunks[0], '\n');
      SplitPiecesLackSeparator(buffer + chunks[0], '\n');
      BufferedFollowsText(pieces[|pieces| - 1], chunks[1..], handle);
      BufferedStep(buffer, chunks, handle);
    }
  }

  /** The corrected re-framer, starting with an empty buffer. */
  function ReframeBuffered(chunks: seq<string>, parse: string -> Parsed, isExistingProject: bool): (out: seq<Frame>)
    ensures |out| >= 2
    ensures out[0] == Opening(isExistingProject)
    ensures out[|out| - 1] == Closing(isExistingProject)
  {
    [Opening(isExistingProject)] + FramesBuffered("", chunks, LineFrame(parse)) + [Closing(isExistingProject)]
  }

  /** The corrected re-framer does not depend on where the chunks are cut,
      and it agrees with the as-written loop when the text arrives whole. */
  lemma ReframeBufferedIsChunkingInvariant(c1: seq<string>, c2: seq<string>, parse: string -> Parsed, e: bool)
    requires Concat(c1) == Concat(c2)
    ensures ReframeBuffered(c1, parse, e) == ReframeBuffered(c2, parse, e)
    ensures ReframeBuffered([Concat(c1)], parse, e) == Reframe([Concat(c1)], parse, e)
  {
    var handle := LineFrame(parse);
    BufferedFollowsText("", c1, handle);
    BufferedFollowsText("", c2, handle);
    BufferedFollowsText("", [Concat(c1)], handle);
    assert "" + Concat(c1) == Concat(c1);
    assert Concat([Concat(c1)]) == Concat(c1);
    assert FramesOfChunks([Concat(c1)], handle) == FramesOfChunk(Concat(c1), handle);
  }
}

=== FILE: text.dfy ===
/** The JavaScript string operations the source relies on, over `seq<char>`:
    `trim()`, `split(sep)` with a one-character separator, `join(sep)`,
    `startsWith`, `includes` and the decimal rendering of a number in a
    template literal. Each comes with the facts the other modules need. */
module Text {

  /** The ECMAScript WhiteSpace and LineTerminator code points, which are
      exactly the characters `String.prototype.trim` removes. */
  const WhitespaceChars: set<char> := {
    '\t', '\n', '\U{B}', '\U{C}', '\r', ' ', '\U{A0}', '\U{1680}',
    '\U{2000}', '\U{2001}', '\U{2002}', '\U{2003}', '\U{2004}', '\U{2005}',
    '\U{2006}', '\U{2007}', '\U{2008}', '\U{2009}', '\U{200A}',
    '\U{2028}', '\U{2029}', '\U{202F}', '\U{205F}', '\U{3000}', '\U{FEFF}'
  }

  predicate IsWhitespace(c: char) {
    c in WhitespaceChars
  }

  /** Every character of `s` is whitespace (the empty string included). */
  predicate Blank(s: string) {
    forall i :: 0 <= i < |s| ==> IsWhitespace(s[i])
  }

  /** `s` starts and ends with a non-whitespace character, or is empty. */
  predicate Trimmed(s: string) {
    s != [] ==> !IsWhitespace(s[0]) && !IsWhitespace(s[|s| - 1])
  }

  /** The first index at or after `i` that does not hold whitespace (`|s|`
      when there is none). */
  function SkipBlankForward(s: string, i: nat): (j: nat)
    requires i <= |s|
    ensures i <= j <= |s|
    ensures j < |s| ==> !IsWhitespace(s[j])
    decreases |s| - i
  {
    if i < |s| && IsWhitespace(s[i]) then SkipBlankForward(s, i + 1) else i
  }

  /** The end of `s[lo..hi]` once its trailing whitespace is dropped: the
      index just after the last non-whitespace character (`lo` when there is
      none). */
  function SkipBlankBackward(s: string, lo: nat, hi: nat): (j: nat)
    requires lo <= hi <= |s|
    ensures lo <= j <= hi
    ensures j > lo ==> !IsWhitespace(s[j - 1])
    decreases hi
  {
    if hi > lo && IsWhitespace(s[hi - 1]) then SkipBlankBackward(s, lo, hi - 1) else hi
  }

  /** Every index skipped forward holds whitespace. */
  lemma {:induction false} SkipBlankForwardSkipsBlank(s: string, i: nat)
    requires i <= |s|
    ensures forall k :: i <= k < SkipBlankForward(s, i) ==> IsWhitespace(s[k])
    decreases |s| - i
  {
    if i < |s| && IsWhitespace(s[i]) {
      SkipBlankForwardSkipsBlank(s, i + 1);
    }
  }

  /** Every index skipped backward holds whitespace. */
  lemma {:induction false} SkipBlankBackwardSkipsBlank(s: string, lo: nat, hi: nat)
    requires lo <= hi <= |s|
    ensures forall k :: SkipBlankBackward(s, lo, hi) <= k < hi ==> IsWhitespace(s[k])
    decreases hi
  {
    if hi > lo && IsWhitespace(s[hi - 1]) {
      SkipBlankBackwardSkipsBlank(s, lo, hi - 1);
    }
  }

  /** Where the trimmed text starts in `s`. */
  function TrimStartIndex(s: string): nat
    ensures TrimStartIndex(s) <= |s|
  {
    SkipBlankForward(s, 0)
  }

  /** Where the trimmed text ends in `s`. */
  function TrimEndIndex(s: string): nat
    ensures TrimStartIndex(s) <= TrimEndIndex(s) <= |s|
  {
    SkipBlankBackward(s, TrimStartIndex(s), |s|)
  }

  /** `s.trim()`: leading whitespace removed, then trailing whitespace.
      `TrimIsInfix` states that only whitespace is removed. */
  function Trim(s: string): (r: string)
    ensures |r| <= |s|
    ensures Trimmed(r)
  {
    s[TrimStartIndex(s)..TrimEndIndex(s)]
  }

  /** `s.trim()` is an infix of `s`, and everything cut off on either side of
      it is whitespace. */
  lemma TrimIsInfix(s: string)
    ensures var a, b := TrimStartIndex(s), TrimEndIndex(s);
      && a <= b <= |s| && Trim(s) == s[a..b]
      && Blank(s[..a]) && Blank(s[b..])
  {
    var a, b := TrimStartIndex(s), TrimEndIndex(s);
    SkipBlankForwardSkipsBlank(s, 0);
    SkipBlankBackwardSkipsBlank(s, a, |s|);
    assert Blank(s[..a]) by {
      forall i | 0 <= i < a
        ensures IsWhitespace(s[..a][i])
      {
        assert s[..a][i] == s[i];
      }
    }
    assert Blank(s[b..]) by {
      forall i | 0 <= i < |s| - b
        ensures IsWhitespace(s[b..][i])
      {
        assert s[b..][i] == s[b + i];
      }
    }
  }

  /** A string trims to the empty string exactly when it is blank. */
  lemma TrimEmptyIffBlank(s: string)
    ensures Trim(s) == [] <==> Blank(s)
  {
    var a, b := TrimStartIndex(s), TrimEndIndex(s);
    if Trim(s) == [] {
      assert a == b;
      SkipBlankForwardSkipsBlank(s, 0);
      SkipBlankBackwardSkipsBlank(s, a, |s|);
    } else {
      assert a < |s| && !IsWhitespace(s[a]);
    }
  }

  /** A string that is already `Trimmed` is left alone by `Trim`. */
  lemma TrimOfTrimmed(s: string)
    requires Trimmed(s)
    ensures Trim(s) == s
  {
    if s != [] {
      assert TrimStartIndex(s) == 0;
      assert TrimEndIndex(s) == |s|;
    }
  }

  /** `trim()` is idempotent. */
  lemma TrimIdempotent(s: string)
    ensures Trim(Trim(s)) == Trim(s)
  {
    TrimOfTrimmed(Trim(s));
  }

  /** Trimming never introduces a character: a character absent from `s` is
      absent from `s.trim()`. */
  lemma TrimKeepsAbsent(s: string, c: char)
    requires c !in s
    ensures c !in Trim(s)
  {
    var a, b := TrimStartIndex(s), TrimEndIndex(s);
    forall i | 0 <= i < b - a
      ensures Trim(s)[i] != c
    {
      assert Trim(s)[i] == s[a + i];
    }
  }

  /** `s.split(sep)` for a one-character separator: the maximal pieces of `s`
      between separators, at least one piece (`"".split(sep)` is `[""]`). */
  function Split(s: string, sep: char): (parts: seq<string>)
    ensures |parts| >= 1
    decreases |s|
  {
    if |s| == 0 then
      [""]
    else if s[0] == sep then
      [""] + Split(s[1..], sep)
    else
      var rest := Split(s[1..], sep);
      [[s[0]] + rest[0]] + rest[1..]
  }

  /** No piece of a split contains the separator. */
  lemma {:induction false} SplitPiecesLackSeparator(s: string, sep: char)
    ensures forall i :: 0 <= i < |Split(s, sep)| ==> sep !in Split(s, sep)[i]
    decreases |s|
  {
    if |s| > 0 {
      SplitPiecesLackSeparator(s[1..], sep);
    }
  }

  /** The first piece of a split is the longest separator-free prefix: it is a
      prefix of `s`, and the separator follows it unless it is all of `s`. */
  lemma {:induction false} SplitFirstPiece(s: string, sep: char)
    ensures var p := Split(s, sep)[0];
      && sep !in p
      && |p| <= |s| && p == s[..|p|]
      && (|p| < |s| ==> s[|p|] == sep)
    decreases |s|
  {
    SplitPiecesLackSeparator(s, sep);
    if |s| > 0 && s[0] != sep {
      SplitFirstPiece(s[1..], sep);
    }
  }

  /** `parts.join(sep)`. */
  function Join(parts: seq<string>, sep: string): string
  {
    if |parts| == 0 then ""
    else if |parts| == 1 then parts[0]
    else parts[0] + sep + Join(parts[1..], sep)
  }

  /** Splitting a string with no separator yields the string itself. */
  lemma {:induction false} SplitNoSeparator(s: string, sep: char)
    requires sep !in s
    ensures Split(s, sep) == [s]
    decreases |s|
  {
    if |s| > 0 {
      SplitNoSeparator(s[1..], sep);
      assert [s[0]] + s[1..] == s;
    }
  }

  /** Unfolding `Split` on a string that starts with a non-separator. */
  lemma SplitCons(c: char, t: string, sep: char)
    requires c != sep
    ensures var pt := Split(t, sep);
      Split([c] + t, sep) == [[c] + pt[0]] + pt[1..]
  {
    assert ([c] + t)[1..] == t;
  }

  /** Splitting `x + y` splits `x`, and re-splits its last (unterminated)
      piece together with `y`. This is how the pieces of consecutive
      chunks of one text relate to the pieces of the whole text. */
  lemma {:induction false} SplitConcat(x: string, y: string, sep: char)
    ensures var px := Split(x, sep);
      Split(x + y, sep) == px[..|px| - 1] + Split(px[|px| - 1] + y, sep)
    decreases |x|
  {
    if |x| == 0 {
      assert x + y == y;
    } else if x[0] == sep {
      assert (x + y)[1..] == x[1..] + y;
      SplitConcat(x[1..], y, sep);
    } else {
      SplitConcatCons(x[0], x[1..], y, sep);
      assert [x[0]] + x[1..] == x;
      assert [x[0]] + (x[1..] + y) == x + y;
    }
  }

  /** The step of `SplitConcat` for a text that starts with a non-separator. */
  lemma {:induction false} SplitConcatCons(c: char, t: string, y: string, sep: char)
    requires c != sep
    ensures var px := Split([c] + t, sep);
      Split([c] + (t + y), sep) == px[..|px| - 1] + Split(px[|px| - 1] + y, sep)
    decreases |t| + 1, 0
  {
    var pt := Split(t, sep);
    SplitConcat(t, y, sep);
    if |pt| == 1 {
      SplitConcatConsSingle(c, t, y, sep);
    } else {
      SplitConcatConsMany(c, t, y, sep);
    }
  }

  /** `SplitConcatCons` when the rest of the text holds no separator. */
  lemma SplitConcatConsSingle(c: char, t: string, y: string, sep: char)
    requires c != sep
    requires |Split(t, sep)| == 1
    requires var pt := Split(t, sep);
      Split(t + y, sep) == Split(pt[0] + y, sep)
    ensures var px := Split([c] + t, sep);
      Split([c] + (t + y), sep) == px[..|px| - 1] + Split(px[|px| - 1] + y, sep)
  {
    var pt := Split(t, sep);
    var l := pt[0];
    var r := Split(t + y, sep);
    var px := Split([c] + t, sep);
    assert px == [[c] + l] by {
      SplitCons(c, t, sep);
      assert pt[1..] == [];
    }
    assert px[|px| - 1] + y == [c] + (l + y);
    assert Split([c] + (t + y), sep) == [[c] + r[0]] + r[1..] by {
      SplitCons(c, t + y, sep);
    }
    assert Split([c] + (l + y), sep) == [[c] + r[0]] + r[1..] by {
      SplitCons(c, l + y, sep);
    }
    assert px[..|px| - 1] == [];
  }

  /** `SplitConcatCons` when the rest of the text holds a separator. */
  lemma SplitConcatConsMany(c: char, t: string, y: string, sep: char)
    requires c != sep
    requires |Split(t, sep)| > 1
    requires var pt := Split(t, sep);
      Split(t + y, sep) == pt[..|pt| - 1] + Split(pt[|pt| - 1] + y, sep)
    ensures var px := Split([c] + t, sep);
      Split([c] + (t + y), sep) == px[..|px| - 1] + Split(px[|px| - 1] + y, sep)
  {
    var pt := Split(t, sep);
    var l := pt[|pt| - 1];
    var px := Split([c] + t, sep);
    var r := Split(t + y, sep);
    assert px == [[c] + pt[0]] + pt[1..] by {
      SplitCons(c, t, sep);
    }
    assert Split([c] + (t + y), sep) == [[c] + r[0]] + r[1..] by {
      SplitCons(c, t + y, sep);
    }
    assert r[0] == pt[0];
    assert r[1..] == pt[1..|pt| - 1] + Split(l + y, sep);
    assert px[..|px| - 1] == [[c] + pt[0]] + pt[1..|pt| - 1];
    assert px[|px| - 1] == l;
  }

  /** A separator with `a` before it (and no separator inside `a`) closes the
      first piece. */
  lemma {:induction false} SplitAtSeparator(a: string, b: string, sep: char)
    requires sep !in a
    ensures Split(a + [sep] + b, sep) == [a] + Split(b, sep)
    decreases |a|
  {
    if |a| == 0 {
      assert a + [sep] + b == [sep] + b;
      assert ([sep] + b)[1..] == b;
    } else {
      assert (a + [sep] + b)[1..] == a[1..] + [sep] + b;
      SplitAtSeparator(a[1..], b, sep);
      assert [a[0]] + a[1..] == a;
    }
  }

  /** Splitting distributes over a separator: the pieces of `a + sep + b` are
      the pieces of `a` followed by the pieces of `b`. */
  lemma SplitAppend(a: string, b: string, sep: char)
    ensures Split(a + [sep] + b, sep) == Split(a, sep) + Split(b, sep)
  {
    var pa := Split(a, sep);
    var last := pa[|pa| - 1];
    assert Split(a + [sep] + b, sep) == pa[..|pa| - 1] + Split(last + [sep] + b, sep) by {
      SplitConcat(a, [sep] + b, sep);
      assert a + [sep] + b == a + ([sep] + b);
      assert last + ([sep] + b) == last + [sep] + b;
    }
    assert Split(last + [sep] + b, sep) == [last] + Split(b, sep) by {
      SplitPiecesLackSeparator(a, sep);
      SplitAtSeparator(last, b, sep);
    }
    assert pa == pa[..|pa| - 1] + [last];
  }

  /** `split` undoes `join` for pieces that contain no separator. */
  lemma {:induction false} SplitJoin(parts: seq<string>, sep: char)
    requires |parts| >= 1
    requires forall i :: 0 <= i < |parts| ==> sep !in parts[i]
    ensures Split(Join(parts, [sep]), sep) == parts
    decreases |parts|
  {
    if |parts| == 1 {
      SplitNoSeparator(parts[0], sep);
    } else {
      SplitJoin(parts[1..], sep);
      SplitNoSeparator(parts[0], sep);
      SplitAppend(parts[0], Join(parts[1..], [sep]), sep);
      assert parts == [parts[0]] + parts[1..];
    }
  }

  /** `join` undoes `split`: no character is lost or added. */
  lemma {:induction false} JoinSplit(s: string, sep: char)
    ensures Join(Split(s, sep), [sep]) == s
    decreases |s|
  {
    if |s| > 0 {
      JoinSplit(s[1..], sep);
      var pt := Split(s[1..], sep);
      if s[0] == sep {
        assert Split(s, sep) == [""] + pt;
        assert Split(s, sep)[1..] == pt;
        assert [s[0]] + s[1..] == s;
      } else {
        var p := Split(s, sep);
        assert p[1..] == pt[1..];
        if |pt| == 1 {
          assert [s[0]] + pt[0] == s;
        } else {
          assert Join(pt, [sep]) == pt[0] + [sep] + Join(pt[1..], [sep]);
          assert [s[0]] + s[1..] == s;
        }
      }
    }
  }

  /** `s.startsWith(prefix)`. */
  predicate StartsWith(s: string, prefix: string) {
    |prefix| <= |s| && s[..|prefix|] == prefix
  }

  /** `s.includes(sub)`: `sub` occurs somewhere in `s`. */
  predicate Contains(s: string, sub: string)
    decreases |s|
  {
    StartsWith(s, sub) || (|s| > 0 && Contains(s[1..], sub))
  }

  predicate IsDigit(c: char) {
    '0' <= c <= '9'
  }

  function DigitValue(c: char): (d: nat)
    requires IsDigit(c)
    ensures d < 10
  {
    c as int - '0' as int
  }

  function DigitChar(d: nat): (c: char)
    requires d < 10
  {
    "0123456789"[d]
  }

  /** The numeric value of a string of decimal digits. */
  function DecimalValue(s: string): nat
    requires forall i :: 0 <= i < |s| ==> IsDigit(s[i])
  {
    if |s| == 0 then 0
    else 10 * DecimalValue(s[..|s| - 1]) + DigitValue(s[|s| - 1])
  }

  /** `${n}` for a natural number: its decimal digits, without leading zeros,
      and reading them back gives `n`. */
  function NatToString(n: nat): (r: string)
    ensures |r| >= 1
    ensures forall i :: 0 <= i < |r| ==> IsDigit(r[i])
    ensures DecimalValue(r) == n
    ensures |r| > 1 ==> r[0] != '0'
    decreases n
  {
    if n < 10 then
      [DigitChar(n)]
    else
      var r := NatToString(n / 10) + [DigitChar(n % 10)];
      assert r[..|r| - 1] == NatToString(n / 10);
      r
  }

  /** The string with its leading decimal digits removed. */
  function DropDigits(s: string): (r: string)
    ensures |r| <= |s| && r == s[|s| - |r|..]
    ensures r != [] ==> !IsDigit(r[0])
  {
    if |s| > 0 && IsDigit(s[0]) then DropDigits(s[1..]) else s
  }

  /** Dropping the digits of a rendered number in front of a non-digit
      recovers what followed the number. */
  lemma {:induction false} DropDigitsOfNumber(digits: string, rest: string)
    requires forall i :: 0 <= i < |digits| ==> IsDigit(digits[i])
    requires rest != [] && !IsDigit(rest[0])
    ensures DropDigits(digits + rest) == rest
    decreases |digits|
  {
    if |digits| > 0 {
      assert (digits + rest)[1..] == digits[1..] + rest;
      DropDigitsOfNumber(digits[1..], rest);
    } else {
      assert digits + rest == rest;
    }
  }
}

=== FILE: wrappers.dfy ===
/** The wrappers used throughout the model: `Option` for the
    source's `T | null | undefined` values and `Result` for thrown errors. */
module Wrappers {

  datatype Option<+T> = None | Some(value: T)

  datatype Result<+R, +E> = Success(value: R) | Failure(error: E)
}
